=== FILE: README.md ===
# MyBillzio core in Dafny

MyBillzio is a billing app for small shops. Owners sell from a cart, and each
sale is paid in cash, by UPI or on credit ("udhaar"). They track which
customers owe money, keep product stock, and pay for a FREE, BASIC or PRO
subscription. This project models the rules that sit inside the app's pages
and API routes, and proves properties of them:

- **Plan registry** (`Plans`): the `PLANS` table and the case-insensitive,
  total lookup `getPlanConfig`.
- **Billing page** (`Cart`, `Billing`, `Catalog`): the cart as a map from
  product id to quantity, with add/remove, item count, total and search. Also
  the bill record, the stock writes that follow a sale, the credit-phone
  guard on the confirm button, and `finish`.
- **Credit page** (`Credit`): credit bills grouped by customer phone into a
  total due and a latest bill date. The list is sorted by due, largest first.
  Also the pending total, the phone formatting regex and the reminder text.
- **Daily summary job** (`DailySummary`, `SummaryJob`): which shops are
  eligible, which of them run in the current hour, the cash/UPI/credit split
  of today's bills, the all-time pending credit, the simulation mode, and the
  job's responses.
- **Dashboard** (`Dashboard`): where a visitor is sent, today's sales, pending
  credit, the low-stock count and the service-category display rules.
- **Stock page** (`Stock`): the plan gate, the stock badge and warning icon,
  the search, and the insert/update payload of `handleSave`.
- **Payment verification** (`Payment`): the signature-guarded subscription
  update of `POST /api/payment/verify`, with its error and mock branches.

Shared pieces:

- `Text` models the JavaScript string operations the pages use:
  `toUpperCase`/`toLowerCase` on ASCII, `includes`, `split(':')[0]` and
  `parseInt`.
- `Ledger` holds the bill sums that the dashboard, the credit page and the
  daily summary share.
- `Records` holds the store's rows.

Conventions:

- Money is an integer number of paise; timestamps, "start of today" and the
  current hour are integer parameters.
- A null text column is the empty string.
- A query that returns no data is `None`.
- HMAC-SHA256 and "one calendar month later" are function parameters of
  `Payment.Verify`.
- The service-key environment variables are boolean parameters. So are the
  failures of the bill insert, of the daily summary's queries and of the
  payment route's update, the store failures that the code checks.

Three behaviours of the program worth knowing, which the model keeps:

- Without the service key, the payment route answers with a mock success.
- The credit list does not order customers with equal dues any further.
- The daily summary job logs its message; it does not send it.

## Model

| member | source | states |
|---|---|---|
| Plans.Config | src/lib/plans.ts:18-61 | each entry's `plan` names its own key; pending tracking is on in every plan; only FREE has a bill limit (20), BASIC and PRO are unlimited; stock management is on exactly for BASIC and PRO; advanced reports and priority support exactly for PRO; English is offered in every plan |
| Plans.Lookup | src/lib/plans.ts:66 | `PLANS[key]` is defined exactly for the keys "FREE", "BASIC", "PRO", and the plan found carries that key |
| Plans.GetPlanConfig | src/lib/plans.ts:63-67 | the result is always one of the three table entries: the plan whose key equals the upper-cased name, and FREE when no key does (the empty name included) |
| Plans.LookupIgnoresCase | src/lib/plans.ts:65 | two names that agree after upper-casing get the same entitlements |
| Plans.LookupOfUpper | src/lib/plans.ts:65 | `getPlanConfig(s.toUpperCase()) == getPlanConfig(s)` |
| Plans.UnknownIsFree | src/lib/plans.ts:63-67 | "", "unknown" and "free" give the FREE entry; "basic" and "BASIC" give the BASIC entry |
| Plans.UpgradeIsMonotone | src/lib/plans.ts:19-60 | going up FREE < BASIC < PRO never removes a feature or a language, and a strictly higher plan costs strictly more |
| Text.ToUpper | src/lib/plans.ts:65 | upper-casing keeps the length and maps each ASCII lower-case letter to its capital, leaving other characters alone |
| Text.ToUpperIdempotent | src/lib/plans.ts:65 | upper-casing an upper-cased name changes nothing |
| Text.ToLower | src/app/billing/page.tsx:139 | lower-casing keeps the length and maps each ASCII capital to its lower-case letter |
| Text.Contains | src/app/billing/page.tsx:139 | `hay.includes(needle)` holds exactly when some window of `hay` equals `needle` |
| Text.ContainsEmpty | src/app/billing/page.tsx:139 | every string includes the empty string |
| Text.Before | src/app/api/cron/daily-summary/route.ts:87 | `split(':')[0]` is a prefix free of the separator, followed in the string by the separator or by nothing |
| Text.ParseIntOfDigits | src/app/api/cron/daily-summary/route.ts:89 | `parseInt` of a run of digits followed by a non-digit (or nothing) is the value of the run |
| Text.ParseIntNoDigits | src/app/stock/page.tsx:70 | `parseInt` of text that starts with neither a digit nor a sign is NaN |
| Text.ParseInt | src/app/stock/page.tsx:70 | `parseInt` in base 10 (optional sign, then the longest digit run; NaN without digits); characterised by `Text.ParseIntOfDigits`, `Text.ParseIntSigned`, `Text.ParseIntSignAlone` and `Text.ParseIntNoDigits` |
| Text.ParseIntSigned | src/app/stock/page.tsx:70 | a '-' before a digit run followed by a non-digit gives the run's value negated, a '+' gives the value itself |
| Text.ParseIntSignAlone | src/app/stock/page.tsx:70 | a sign followed by nothing, or by a non-digit, is NaN |
| Text.DigitRun | src/app/api/cron/daily-summary/route.ts:89 | the length of the leading run of digits `parseInt` reads: every character before it is a digit, the one at it is not |
| Catalog.FindProduct | src/app/billing/page.tsx:132 | `products.find` returns the first product with the id, and nothing exactly when no product has it |
| Catalog.FindListed | src/app/billing/page.tsx:164 | with distinct ids, finding a listed product's id returns that product |
| Catalog.Search | src/app/billing/page.tsx:138-140 | a product is kept exactly when its lower-cased name includes the lower-cased term |
| Catalog.SearchConcat | src/app/billing/page.tsx:138-140 | the filter distributes over concatenation, so it keeps the list's order |
| Catalog.SearchEmpty | src/app/stock/page.tsx:95 | an empty search keeps every product, in order |
| Catalog.SearchIgnoresCase | src/app/billing/page.tsx:139 | searching for the upper-cased term lists the same products as the term |
| Cart.IndexOf | src/app/billing/page.tsx:117 | the position of the id's entry, which is the first with that id; none exactly when no entry has the id |
| Cart.Qty | src/app/billing/page.tsx:117 | `cart[id] \|\| 0`; its changes under add and remove are stated by `Cart.AddToCart` and `Cart.RemoveFromCart` |
| Cart.UnitPrice | src/app/billing/page.tsx:132-133 | the price of the first product with the id, 0 when none matches; how it moves the total is `Cart.TotalAfterAdd` and `Cart.TotalAfterRemove` |
| Cart.LineTotal | src/app/billing/page.tsx:133 | what one entry charges, unit price times quantity; characterised by `Cart.LineTotalStep` |
| Cart.CartTotal | src/app/billing/page.tsx:131-134 | `cartTotal`; characterised by `Cart.TotalConcat`, `Cart.TotalSplit`, `Cart.TotalAfterAdd` and `Cart.TotalAfterRemove` |
| Cart.CartCount | src/app/billing/page.tsx:136 | `cartCount`, the sum of the quantities; characterised by `Cart.CountConcat`, `Cart.CountAfterAdd` and `Cart.CountAfterRemove` |
| Cart.AddToCart | src/app/billing/page.tsx:116-118 | the id's quantity rises by one (absent counts as 0); every other quantity and membership stays; the cart invariant (one entry per id, each quantity at least 1) is kept |
| Cart.RemoveFromCart | src/app/billing/page.tsx:120-129 | an absent id leaves the cart unchanged; otherwise the id's quantity falls by one and its entry goes when it reaches 0; other quantities stay; the invariant is kept |
| Cart.AddThenRemove | src/app/billing/page.tsx:116-129 | removing a product just added gives back the very same cart |
| Cart.RemoveThenAdd | src/app/billing/page.tsx:116-129 | adding back a product just removed restores every quantity |
| Cart.CountConcat | src/app/billing/page.tsx:136 | the item count of two carts joined is the sum of their counts |
| Cart.CountAfterAdd | src/app/billing/page.tsx:136 | every add puts one more item in the count |
| Cart.CountAfterRemove | src/app/billing/page.tsx:136 | removing a carted product takes one item out of the count |
| Cart.LineTotalStep | src/app/billing/page.tsx:133 | one more unit of an entry adds one unit price to what it charges |
| Cart.TotalConcat | src/app/billing/page.tsx:131-134 | the total of two carts joined is the sum of their totals |
| Cart.TotalSplit | src/app/billing/page.tsx:131-134 | the total is what comes before an entry, plus that entry's price times quantity, plus what comes after |
| Cart.TotalAfterAdd | src/app/billing/page.tsx:131-134 | adding a product raises the total by its price, and by 0 for an id with no product |
| Cart.TotalBumpAt | src/app/billing/page.tsx:131-134 | raising one entry's quantity by one raises the total by that entry's unit price |
| Cart.TotalAfterRemove | src/app/billing/page.tsx:131-134 | removing a carted product lowers the total by its price |
| Billing.StockWritesPerProduct | src/app/billing/page.tsx:162-171 | the per-entry writes leave each product as one write would: stock read before the bill minus the product's quantity if carted and known, else untouched |
| Billing.ConfirmEnabled | src/app/billing/page.tsx:388 | the confirm button is disabled exactly for a credit sale with a phone shorter than 10 characters; its consequence is `Billing.ConfirmedCreditBillHasPhone` |
| Billing.SetStock | src/app/billing/page.tsx:166-169 | `.update({ stock }).eq('id', id)` on every row with the id; used by `Billing.WriteOne` |
| Billing.WriteOne | src/app/billing/page.tsx:164-170 | the write for one cart entry, skipped when no product has its id; characterised by `Billing.WriteOneStep` |
| Billing.ApplyStockWrites | src/app/billing/page.tsx:163-171 | the writes for all cart entries in turn; characterised by `Billing.StockWritesPerProduct` |
| Billing.WriteOneStep | src/app/billing/page.tsx:163-170 | the first entry's write followed by the writes of the rest ends each product where all the writes do |
| Billing.DecrementStock | src/app/billing/page.tsx:162-171 | only stock changes; products not in the cart are untouched; with distinct ids each product's stock drops by its cart quantity |
| Billing.StockWritesDistinct | src/app/billing/page.tsx:162-171 | with distinct ids every product's stock after the writes is its stock minus its cart quantity |
| Billing.StockCanGoNegative | src/app/billing/page.tsx:168 | selling one of a product with stock 0 leaves stock -1: there is no lower bound |
| Billing.GenerateBill | src/app/billing/page.tsx:142-171 | nothing happens without shop and user; a failed insert produces no bill; otherwise the bill records the shop, owner, cart total, cart, mode label and the phone (null when empty), and the stock is decremented |
| Billing.ConfirmedCreditBillHasPhone | src/app/billing/page.tsx:388 | a credit bill created through the enabled confirm button is a credit bill with a phone of at least 10 characters |
| Billing.Finish | src/app/billing/page.tsx:195-203 | onboarding goes to the dashboard; otherwise the cart and phone are cleared, the success view hidden and the payment mode kept |
| Ledger.Since | src/app/dashboard/page.tsx:49-53 | keeps exactly the bills created at or after the start of the day |
| Ledger.Total | src/app/dashboard/page.tsx:55 | the sum of the amounts; characterised by `Ledger.TotalAppend` and `Ledger.BucketsPartitionTotal` |
| Ledger.ModeTotal | src/app/api/cron/daily-summary/route.ts:108-114 | the sum of one mode's amounts; characterised by `Ledger.ModeTotalAppend`, `Ledger.CreditOnlyTotal` and `Ledger.SinceModeBound` |
| Ledger.OtherTotal | src/app/api/cron/daily-summary/route.ts:111-113 | the amounts of bills of no known mode; characterised by `Ledger.BucketsPartitionTotal` and `Ledger.OtherTotalZero` |
| Ledger.OfShop | src/app/dashboard/page.tsx:52 | keeps exactly the bills of the shop |
| Ledger.CreditOnly | src/app/dashboard/page.tsx:59-63 | keeps exactly the credit-mode bills |
| Ledger.TotalAppend | src/app/dashboard/page.tsx:55 | the sum over two bill lists joined is the sum of their sums |
| Ledger.BucketsPartitionTotal | src/app/api/cron/daily-summary/route.ts:108-114 | every amount lands in exactly one of cash, UPI, credit or "other", so the four add up to the total |
| Ledger.OtherTotalZero | src/app/api/cron/daily-summary/route.ts:111-113 | when every mode is cash, UPI or credit nothing falls outside the three buckets |
| Ledger.CreditOnlyTotal | src/app/dashboard/page.tsx:59-65 | summing the credit bills equals the credit bucket of all bills |
| Ledger.SinceModeBound | src/app/api/cron/daily-summary/route.ts:116-122 | with non-negative amounts a mode's sum over today's bills is at most its sum over all bills |
| Ledger.ModeTotalAppend | src/app/api/cron/daily-summary/route.ts:108-114 | a mode's sum over two bill lists joined is the sum of its sums |
| Credit.EntryIndex | src/app/credit/page.tsx:64 | `customerMap[phone]` is found exactly when an entry for that phone exists |
| Credit.Due | src/app/credit/page.tsx:71 | the sum of one phone's amounts, the reference for each entry's due in `Credit.GroupSound` |
| Credit.PhoneTotal | src/app/credit/page.tsx:61-62 | the sum of the amounts of bills with a phone, the reference for `totalPending` in `Credit.GroupDueSum` |
| Credit.Upsert | src/app/credit/page.tsx:62-76 | one step of the `forEach`; characterised by `Credit.UpsertSound`, `Credit.UpsertNew` and `Credit.UpsertExisting` |
| Credit.Group | src/app/credit/page.tsx:59-77 | the `customerMap` built over all bills, in order of first appearance; characterised by `Credit.GroupSound` and `Credit.GroupDueSum` |
| Credit.DueSum | src/app/credit/page.tsx:81 | the sum of the dues; characterised by `Credit.DueSumConcat`, `Credit.DueSumUpdate` and `Credit.GroupDueSum` |
| Credit.CreditQuery | src/app/credit/page.tsx:47-51 | this shop's credit bills; its relation to the dashboard is `Dashboard.CreditPageWithinDashboard` |
| Credit.DueWithoutBills | src/app/credit/page.tsx:61-62 | a phone with no bill is owed nothing |
| Credit.GroupSound | src/app/credit/page.tsx:59-77 | one entry per distinct phone; the customers are exactly the non-empty phones of the bills; each entry's due is the sum of that phone's amounts and its date the latest of that phone's bills |
| Credit.PhonesAppend | src/app/credit/page.tsx:62 | a bill adds its phone to the customers when it has one, and nothing otherwise |
| Credit.OtherEntryStays | src/app/credit/page.tsx:61-76 | a bill of another phone changes neither an entry's due nor its latest date |
| Credit.UpsertSound | src/app/credit/page.tsx:62-76 | one step of the `forEach` keeps the entries distinct and faithful and adds the bill's phone to the customers |
| Credit.UpsertNew | src/app/credit/page.tsx:64-71 | a first bill of a phone adds an entry with its amount and date, keeping the others |
| Credit.FirstBillOfCustomer | src/app/credit/page.tsx:64-71 | a phone's first bill makes its due that amount and its latest date that bill's date |
| Credit.UpsertExisting | src/app/credit/page.tsx:71-75 | a further bill of a known phone updates only that entry and keeps the customers |
| Credit.NextBillOfCustomer | src/app/credit/page.tsx:71-75 | a further bill adds its amount to the due and moves the date only when it is later |
| Credit.InsertByDue | src/app/credit/page.tsx:79 | inserting an entry adds it to the multiset and its due to the sum |
| Credit.InsertSorted | src/app/credit/page.tsx:79 | inserting into a list sorted by due, largest first, keeps it sorted |
| Credit.InsertDistinct | src/app/credit/page.tsx:79 | inserting an entry of a new customer keeps customers distinct |
| Credit.SortByDue | src/app/credit/page.tsx:79 | the sorted list is a permutation of the entries with the same total due |
| Credit.SortSound | src/app/credit/page.tsx:79 | the sorted list has non-increasing dues and keeps distinct customers distinct |
| Credit.DueSumConcat | src/app/credit/page.tsx:81 | the dues of two lists joined add up |
| Credit.DueSumUpdate | src/app/credit/page.tsx:71 | changing one entry changes the sum of dues by the difference |
| Credit.GroupDueSum | src/app/credit/page.tsx:81 | the dues of the entries sum to the amounts of the credit bills that carry a phone |
| Credit.SortedStaysFaithful | src/app/credit/page.tsx:79 | reordering the entries keeps each one's due and date right and keeps the customer set |
| Credit.View | src/app/credit/page.tsx:53-82 | no data leaves an empty list and 0; otherwise the list is a permutation of the grouping, sorted by due, largest first, one entry per customer with the right due and date, and `totalPending` is the sum of dues, equal to the phone-carrying credit amounts |
| Credit.ViewOfNoBills | src/app/credit/page.tsx:59-82 | no credit bills: an empty list and nothing pending |
| Credit.ViewOfOneCustomer | src/app/credit/page.tsx:59-82 | one bill of 250 rupees gives one entry of 250 rupees with that bill's date, and 250 pending |
| Credit.FirstRun | src/app/credit/page.tsx:134 | finds the leftmost place where ten digits start, and none when there is no such place |
| Credit.FormatPhone | src/app/credit/page.tsx:134 | text without ten consecutive digits is unchanged; otherwise a space goes after the first five digits of the leftmost run and nothing else changes |
| Credit.FormatPhoneInsertsOneSpace | src/app/credit/page.tsx:134 | formatting either changes nothing or inserts one space inside a ten-digit run, and removing it gives the phone back |
| Credit.FormatTenDigits | src/app/credit/page.tsx:134 | a ten-digit phone shows as two groups of five separated by a space |
| Credit.ShopLabel | src/app/credit/page.tsx:93 | `shopName \|\| 'our shop'`: the shop name when it is set, "our shop" when it is empty; never empty |
| Credit.ReminderText | src/app/credit/page.tsx:93 | the reminder contains the amount and names the shop, or "our shop" when the shop name is empty |
| DailySummary.EligibleShops | src/app/api/cron/daily-summary/route.ts:69-73 | a shop is kept exactly when its plan is exactly "BASIC" or "PRO" and its daily summary is enabled |
| DailySummary.Eligible | src/app/api/cron/daily-summary/route.ts:72-73 | plan exactly "BASIC" or "PRO" and the summary switched on; consequences in `DailySummary.EligibleHasSummaryFeature` and `DailySummary.LowerCasePlanIsSkipped` |
| DailySummary.TargetHour | src/app/api/cron/daily-summary/route.ts:87-89 | `parseInt` of the text before ':' of the time setting; characterised by `DailySummary.DefaultRunsAtNine` and `DailySummary.HourOfTime` |
| DailySummary.RunsNow | src/app/api/cron/daily-summary/route.ts:89 | forced, or the target hour equals the current hour; characterised by `DailySummary.ForceSelectsAll` and `DailySummary.NaNHourNeverMatches` |
| DailySummary.SplitOf | src/app/api/cron/daily-summary/route.ts:103-114 | total, cash, UPI and credit sums, the reference for `DailySummary.Aggregate`; see `DailySummary.BucketsCoverSales` |
| DailySummary.SummaryOf | src/app/api/cron/daily-summary/route.ts:97-122 | one shop's split of today's bills and its all-time credit sum; see `DailySummary.TodayCreditWithinPending` and `Dashboard.AgreesWithDailySummary` |
| DailySummary.TimeSetting | src/app/api/cron/daily-summary/route.ts:87 | never empty, and the configured time whenever one is set (the default itself is `DefaultRunsAtNine`) |
| DailySummary.Selected | src/app/api/cron/daily-summary/route.ts:85-91 | a shop is processed exactly when forced or when its hour parses to the current hour |
| DailySummary.Aggregate | src/app/api/cron/daily-summary/route.ts:103-114 | the loop's totals are the sum of all amounts and the cash, UPI and credit sums, and the total is the three plus the amounts of other modes |
| DailySummary.Summaries | src/app/api/cron/daily-summary/route.ts:83-143 | one summary per processed shop, in order, each computed from that shop's bills |
| DailySummary.LoopStep | src/app/api/cron/daily-summary/route.ts:85-143 | one more shop through the loop adds its summary exactly when it is due |
| DailySummary.SelectedStep | src/app/api/cron/daily-summary/route.ts:85-91 | one more shop through the hour check is kept exactly when it is due |
| DailySummary.SummariesAppend | src/app/api/cron/daily-summary/route.ts:143 | a further processed shop appends its summary to the results |
| DailySummary.ForceSelectsAll | src/app/api/cron/daily-summary/route.ts:89 | with `force` every eligible shop is processed, in order |
| DailySummary.NaNHourNeverMatches | src/app/api/cron/daily-summary/route.ts:89 | a shop whose hour does not parse is only processed when forced |
| DailySummary.DefaultRunsAtNine | src/app/api/cron/daily-summary/route.ts:87-89 | a shop without a time runs in hour 21 |
| DailySummary.HourOfTime | src/app/api/cron/daily-summary/route.ts:87-89 | a time "HH:MM" runs in hour HH, leading zero or not |
| DailySummary.HourOfText | src/app/api/cron/daily-summary/route.ts:87-89 | the text before the ':' of "HH:MM" parses to the value of HH |
| DailySummary.BeforeSeparator | src/app/api/cron/daily-summary/route.ts:87 | the part before the first ':' of digits followed by ":..." is the digits |
| DailySummary.EligibleHasSummaryFeature | src/app/api/cron/daily-summary/route.ts:72 | every eligible shop's plan has the daily-summary entitlement |
| DailySummary.LowerCasePlanIsSkipped | src/app/api/cron/daily-summary/route.ts:72 | a shop on "basic" has the entitlement in the plan registry but is skipped by the job |
| DailySummary.TodayCreditWithinPending | src/app/api/cron/daily-summary/route.ts:97-122 | with non-negative amounts today's credit never exceeds the all-time pending total |
| DailySummary.BucketsCoverSales | src/app/api/cron/daily-summary/route.ts:108-114 | when every mode is cash, UPI or credit, the three buckets add up to the sales |
| DailySummary.ThreeBillScenario | src/app/api/cron/daily-summary/route.ts:103-114 | 1000 cash, 500 UPI and 250 credit rupees give total 1750 split 1000/500/250 |
| SummaryJob.RunJob | src/app/api/cron/daily-summary/route.ts:15-146 | without the key: simulation with 2 processed and no store access; a failed shops query is a database error; "no eligible shops" exactly when none is eligible; with the key, shop data and at least one eligible shop the job completes, `processed` counts the due eligible shops and the details are their summaries, in order |
| SummaryJob.SummarizeShops | src/app/api/cron/daily-summary/route.ts:83-144 | the loop yields the summaries of exactly the due eligible shops, in order |
| SummaryJob.Visit | src/app/api/cron/daily-summary/route.ts:89-143 | a due shop adds its summary, any other shop adds nothing |
| SummaryJob.SummarizeShop | src/app/api/cron/daily-summary/route.ts:97-122 | one shop's summary is its split of today's bills and its all-time credit sum |
| Stock.PageGate | src/app/stock/page.tsx:28-45 | no user goes to login; a user without a shop row stays loading; the page unlocks exactly when the plan's entry enables stock |
| Stock.UnlockedIffPaidPlan | src/app/stock/page.tsx:35-45 | the page unlocks exactly when the upper-cased plan is BASIC or PRO |
| Stock.FreeAndUnknownAreLocked | src/app/stock/page.tsx:97 | FREE, empty and unknown plans are locked; "basic" is unlocked |
| Stock.BadgeOf | src/app/stock/page.tsx:133 | out of stock exactly at 0, low exactly below 10 and not 0 (negatives included), in stock exactly from 10 |
| Stock.ShowsWarning | src/app/stock/page.tsx:136 | `stock < 10`; tied to the badge by `Stock.WarningMatchesBadge` |
| Stock.WarningMatchesBadge | src/app/stock/page.tsx:133-136 | the warning icon shows exactly with the out-of-stock and low-stock badges |
| Stock.Listed | src/app/stock/page.tsx:95 | a product is listed exactly when its lower-cased name includes the lower-cased search |
| Stock.ListedEmptySearch | src/app/stock/page.tsx:95 | an empty search lists every product |
| Stock.Payload | src/app/stock/page.tsx:67-73 | the payload carries the form's name and price and the shop and owner; stock is the parsed integer, or 0 when it is NaN |
| Stock.UnparseableStockIsZero | src/app/stock/page.tsx:70 | stock text starting with neither a digit nor a sign is saved as 0 |
| Stock.DigitStockIsSaved | src/app/stock/page.tsx:70 | stock text of digits is saved as their value |
| Stock.Save | src/app/stock/page.tsx:60-79 | with no signed-in user or no shop row nothing is written; otherwise adding appends the payload, and editing replaces every row with the edited id by the payload, keeping its id, and leaves the others |
| Stock.EditIsIdempotent | src/app/stock/page.tsx:75-76 | saving the same edit twice is saving it once |
| Stock.EditIsFound | src/app/stock/page.tsx:76 | after an edit the product's id finds the form's contents |
| Dashboard.CategoryOf | src/app/dashboard/page.tsx:41 | never empty, and the shop's own category whenever it has one (the default is `MissingCategoryIsRetail`) |
| Dashboard.SalesLabel | src/app/dashboard/page.tsx:132 | "Today's Revenue" exactly for the category "service", "Today's Sales" for every other category |
| Dashboard.SumRows | src/app/dashboard/page.tsx:55 | `?.reduce(...) \|\| 0`; what it shows is stated by `Dashboard.AgreesWithDailySummary`, `Dashboard.NoBillsNoSales` and `Dashboard.PendingCreditIsCreditModeTotal` |
| Dashboard.LowStockCount | src/app/dashboard/page.tsx:69-75 | the count never exceeds the number of products, and by `Dashboard.LowStockMatchesWarnings` it is the number of the shop's products with stock below 10 |
| Dashboard.Load | src/app/dashboard/page.tsx:19-75 | no user goes to login, a user without a shop to setup; otherwise the shop's name, category and the category's sales label show; today's sales are the daily summary's total for the rows today's query sees (0 when it returns no data), and pending credit is the shop's credit-mode total of the rows the credit query sees (0 when it returns none), each independently of the other query; the low-stock card shows exactly for non-service shops, with the number of the shop's products below 10 stock (0 when the count query returns nothing) |
| Dashboard.MissingCategoryIsRetail | src/app/dashboard/page.tsx:41 | a shop without a category shows as retail: "Today's Sales" and the low-stock card |
| Dashboard.ServiceShopView | src/app/dashboard/page.tsx:132-154 | a service shop shows "Today's Revenue" and no low-stock card |
| Dashboard.AgreesWithDailySummary | src/app/dashboard/page.tsx:49-66 | today's sales and pending credit equal the daily summary's total sales and pending total for the same day |
| Dashboard.PendingCreditIsCreditModeTotal | src/app/dashboard/page.tsx:59-66 | pending credit is the sum of every credit bill of the shop, phone or not, whatever the date and whatever today's query returned |
| Dashboard.CreditPageWithinDashboard | src/app/dashboard/page.tsx:59-66 | with non-negative amounts the credit page's pending total is at most the dashboard's, and equal when every credit bill has a phone |
| Dashboard.PhoneTotalBound | src/app/credit/page.tsx:61-62 | leaving out bills without a phone only lowers a non-negative sum, and changes nothing when all have one |
| Dashboard.Warned | src/app/dashboard/page.tsx:69-73 | a product is kept exactly when it is in scope (carries the shop's id, as the count query selects, or the owner's id, as the stock page lists) and its stock is below 10, the warning condition of stock/page.tsx:136 |
| Dashboard.LowStockMatchesWarnings | src/app/dashboard/page.tsx:69-73 | the low-stock count is exactly the number of products with the shop's id whose stock is below 10 |
| Dashboard.WarnedByOwner | src/app/stock/page.tsx:52-56 | when a product is the owner's exactly when it carries the shop's id, the products the dashboard counts (by shop id) are the ones the stock page lists (by owner id) and flags, in order, and the count is their number |
| Dashboard.WarnedBadges | src/app/stock/page.tsx:133-136 | every warned product's badge is out-of-stock or low-stock |
| Dashboard.NoBillsNoSales | src/app/dashboard/page.tsx:49-56 | with no bill since the start of the day, today's sales are 0 |
| Payment.SignedMessage | src/app/api/payment/verify/route.ts:33 | the signed message is the order id, a '\|', then the payment id |
| Payment.Render | src/app/api/payment/verify/route.ts:33 | how string concatenation renders a field the body left out ("undefined"); used in `Payment.Verify` |
| Payment.SignedMessageInjective | src/app/api/payment/verify/route.ts:33 | order ids without '\|' make the message determine the pair it came from |
| Payment.Patched | src/app/api/payment/verify/route.ts:51-57 | the plan becomes `plan_id` (kept when absent), the status "active", the expiry the new date, and the daily summary on; no other column changes |
| Payment.ApplyPatch | src/app/api/payment/verify/route.ts:69-72 | exactly the rows whose id is `shop_id` are patched |
| Payment.PatchIsIdempotent | src/app/api/payment/verify/route.ts:51-72 | applying the patch twice is applying it once |
| Payment.Verify | src/app/api/payment/verify/route.ts:10-85 | a bad body gives 500; no service key gives mock success with no change; no key secret gives 500; a signature other than the HMAC of the message gives 400 with no change, exactly then; success, exactly when the signature matches and the store accepts, patches the shop; every other reply leaves the table as it was |
| Payment.StoreFailureIsDistinct | src/app/api/payment/verify/route.ts:74-78 | a store failure after a valid signature gives 500 with a message different from the signature error |
| Payment.VerifiedShopGetsSummary | src/app/api/payment/verify/route.ts:51-57 | after a verified BASIC or PRO payment the shop is eligible for the daily summary and expires a month from now |
| Payment.ReplayChangesNothing | src/app/api/payment/verify/route.ts:51-72 | replaying a verified request at the same moment leaves the table as the first one did |
| Payment.UnknownPlanIsStored | src/app/api/payment/verify/route.ts:52 | a verified "GOLD" payment stores "GOLD" as active with the summary on, and the registry reads it as FREE |

## Left out

- Store queries, authentication and page redirects as effects. Query results are inputs; redirects are returned values. The credit page's own login and setup redirects (the same checks as the dashboard's) are not modelled.
- React state, JSX, animations, the success view and the UI components.
- The concurrent `Promise.all` stock writes run one after another. Every write uses the stock read before the bill, so the order does not matter when ids are distinct.
- Floating-point money (`Number`, `parseFloat`). Amounts and prices are integers of paise, and `Stock.Form` takes the price already read.
- `Date`, time zones, `toLocaleDateString`, `toISOString` and `setMonth` overflow. Timestamps, the start of the day and the current hour are integers; "one month later" is a parameter.
- The daily summary reads the current hour once for all shops, not once per shop; this matters only across an hour boundary during the run.
- HMAC-SHA256 and the `crypto` module are a function parameter.
- The Razorpay SDK and the create-order route are a foreign call around one multiplication.
- The summary message text and its sending. The job only logs it; the model returns the figures it would carry.
- The simulation-mode mock figures. Only their count, 2, reaches the response.
- The share-on-WhatsApp and reminder links (`window.open`, `encodeURIComponent`).
- Text.ToUpper, Text.ToLower: ASCII letters only; JavaScript's full Unicode case mapping is not modelled.
- Text.ParseInt: leading whitespace, "0x" prefixes and values beyond 2^53 are not modelled.
- String lengths count Dafny characters, not UTF-16 code units; the 10-character phone guard assumes the two agree.
- JavaScript's ordering of integer-like object keys. The cart and the credit grouping keep insertion order. This affects only the order of cart entries and of credit customers with equal dues.
- Credit.SortByDue: proved sorted and a permutation; its order among equal dues (stable, like JavaScript's sort) is not stated.
- The stock page lists products ordered by name, and the billing page lists them newest first; the model keeps the order it is given.
- The dashboard's `try/catch`: a thrown query is not modelled, only a query returning no data.
- The fields of a verify request (`Payment.Request`) are optional strings. An absent `shop_id` renders as "undefined" and matches the shop whose id is "undefined"; no other effect of absent fields is modelled beyond `Payment.Render`. A JSON `null` field (which renders as "null") and a field of another JSON type (a number, an object) cannot be expressed.
- Credit.Group: a phone that names a member of `Object.prototype` (such as "constructor" or "hasOwnProperty") is treated as an ordinary key. The page takes the inherited member for an existing entry and sets a `totalDue` property on that inherited object (NaN, since it had none before). The bill is left out of the list and of the pending total. The model gives that phone its own entry.
- Stock.Save: has no failure input for the write itself. The page ignores the error of its insert or update and closes the form anyway; a failed write leaves the table unchanged.
- Dashboard.Warned: the dashboard counts by shop id while the stock page lists by owner id; the two agree only under the premise of `Dashboard.WarnedByOwner`, which the rows the pages write satisfy but the table does not enforce.
- Billing.DecrementStock: has no failure input. The page ignores the error of each stock update after a bill; a failed write leaves that product's stock unchanged while the bill stands.
- SummaryJob.RunJob: a failed bills query for one shop is not modelled. The route then reports zeros for that shop as sent. The bills table is a total input here.
- SummaryJob.RunJob: an exception inside the job is not modelled. The route answers 500 "Internal Server Error" to one; `JobResponse` has no such case.
- Plan expiry is never checked on read, plan ids are not validated and no order id is remembered. The code does none of these, so neither does the model.

=== FILE: billing.dfy ===
/** The billing page: the confirm-button guard, `handleGenerateBill` (the bill
    record and the stock writes that follow it) and `finish`. */
module Billing {

  import opened Optional
  import opened Records
  import Catalog
  import Cart

  /** The signed-in user and their shop, once the page has loaded both. */
  datatype Session = Session(userId: string, shopId: string)

  /** The page state that `finish` touches. */
  datatype Screen = Screen(cart: Cart.Cart, phone: string, mode: PaymentMode, showSuccess: bool)

  datatype BillOutcome =
    | NotReady                                             // no shop or user yet: nothing happens
    | InsertFailed                                         // the bill insert returned an error
    | Generated(bill: Bill, products: seq<Product>)        // the new bill and the products after the stock writes

  datatype AfterBill = ToDashboard | Reset(screen: Screen)

  /** The confirm button is disabled for a credit sale until the phone has
      at least 10 characters. */
  predicate ConfirmEnabled(mode: PaymentMode, phone: string)
  {
    !(mode == Credit && |phone| < 10)
  }

  /** `.update({ stock: v }).eq('id', id)`: every row with that id gets stock `v`. */
  function SetStock(ps: seq<Product>, id: string, v: int): seq<Product>
  {
    seq(|ps|, i requires 0 <= i < |ps| => if ps[i].id == id then ps[i].(stock := v) else ps[i])
  }

  /** The stock writes of `handleGenerateBill`, one cart entry after another.
      Each write uses the stock the page read before the bill (`snapshot`) and
      is skipped when no product has the entry's id. */
  function ApplyStockWrites(ps: seq<Product>, lines: seq<Line>, snapshot: seq<Product>): seq<Product>
    decreases |lines|
  {
    if |lines| == 0 then ps
    else ApplyStockWrites(WriteOne(ps, lines[0], snapshot), lines[1..], snapshot)
  }

  /** The write for one cart entry. */
  function WriteOne(ps: seq<Product>, l: Line, snapshot: seq<Product>): seq<Product>
  {
    match Catalog.FindProduct(snapshot, l.productId)
    case Some(p) => SetStock(ps, l.productId, p.stock - l.qty)
    case None => ps
  }

  /** The stock a product ends with after the writes for `lines`, if it is written at all. */
  function Written(snapshot: seq<Product>, lines: seq<Line>, id: string): Option<int>
  {
    if Cart.InCart(lines, id) then
      match Catalog.FindProduct(snapshot, id)
      case Some(p) => Some(p.stock - Cart.Qty(lines, id))
      case None => None
    else None
  }

  /** The record `p` becomes after the writes for `lines`. */
  function AfterWrites(snapshot: seq<Product>, lines: seq<Line>, p: Product): Product
  {
    match Written(snapshot, lines, p.id)
    case Some(v) => p.(stock := v)
    case None => p
  }

  /** A cart entry for another id does not change what is written for `k`. */
  lemma WrittenTail(snapshot: seq<Product>, lines: seq<Line>, k: string)
    requires |lines| > 0 && lines[0].productId != k
    ensures Written(snapshot, lines, k) == Written(snapshot, lines[1..], k)
  {
  }

  /** Entry by entry, the writes amount to one write per carted product. */
  lemma {:induction false} StockWritesPerProduct(ps: seq<Product>, lines: seq<Line>, snapshot: seq<Product>)
    requires Cart.Valid(lines)
    ensures |ApplyStockWrites(ps, lines, snapshot)| == |ps|
    ensures forall i :: 0 <= i < |ps| ==>
      ApplyStockWrites(ps, lines, snapshot)[i] == AfterWrites(snapshot, lines, ps[i])
    decreases |lines|
  {
    if |lines| > 0 {
      var next := WriteOne(ps, lines[0], snapshot);
      assert Cart.Valid(lines[1..]);
      StockWritesPerProduct(next, lines[1..], snapshot);
      forall i | 0 <= i < |ps|
        ensures ApplyStockWrites(ps, lines, snapshot)[i] == AfterWrites(snapshot, lines, ps[i])
      {
        WriteOneStep(ps, lines, snapshot, i);
      }
    }
  }

  /** The first entry's write, followed by the writes of the others, is the
      final record of each product. */
  lemma WriteOneStep(ps: seq<Product>, lines: seq<Line>, snapshot: seq<Product>, i: nat)
    requires Cart.Valid(lines) && |lines| > 0 && i < |ps|
    ensures |WriteOne(ps, lines[0], snapshot)| == |ps|
    ensures AfterWrites(snapshot, lines[1..], WriteOne(ps, lines[0], snapshot)[i]) == AfterWrites(snapshot, lines, ps[i])
  {
    var l := lines[0];
    var rest := lines[1..];
    var next := WriteOne(ps, l, snapshot);
    var found := Catalog.FindProduct(snapshot, l.productId);
    assert next[i].id == ps[i].id;
    if ps[i].id == l.productId {
      assert Cart.IndexOf(lines, l.productId) == Some(0);
      assert !Cart.InCart(rest, l.productId);
      assert Written(snapshot, rest, ps[i].id) == None;
      if found.Some? {
        assert next[i] == ps[i].(stock := found.value.stock - l.qty);
      }
    } else {
      assert next[i] == ps[i];
      WrittenTail(snapshot, lines, ps[i].id);
    }
  }

  /** The stock update of `handleGenerateBill`: each carted product's stock
      drops by its quantity, with no lower bound, and nothing else changes. */
  function DecrementStock(ps: seq<Product>, c: Cart.Cart): (r: seq<Product>)
    requires Cart.Valid(c)
    ensures |r| == |ps|
    ensures forall i :: 0 <= i < |ps| ==> r[i] == ps[i].(stock := r[i].stock)
    ensures forall i :: 0 <= i < |ps| && !Cart.InCart(c, ps[i].id) ==> r[i] == ps[i]
    ensures Catalog.DistinctIds(ps) ==>
      forall i :: 0 <= i < |ps| ==> r[i].stock == ps[i].stock - Cart.Qty(c, ps[i].id)
  {
    StockWritesPerProduct(ps, c, ps);
    StockWritesDistinct(ps, c);
    ApplyStockWrites(ps, c, ps)
  }

  lemma StockWritesDistinct(ps: seq<Product>, c: Cart.Cart)
    requires Cart.Valid(c)
    ensures |ApplyStockWrites(ps, c, ps)| == |ps|
    ensures Catalog.DistinctIds(ps) ==>
      forall i :: 0 <= i < |ps| ==> ApplyStockWrites(ps, c, ps)[i].stock == ps[i].stock - Cart.Qty(c, ps[i].id)
  {
    StockWritesPerProduct(ps, c, ps);
    if Catalog.DistinctIds(ps) {
      forall i | 0 <= i < |ps|
        ensures ApplyStockWrites(ps, c, ps)[i].stock == ps[i].stock - Cart.Qty(c, ps[i].id)
      {
        Catalog.FindListed(ps, i);
      }
    }
  }

  /** Nothing stops a sale from taking the stock below zero. */
  lemma StockCanGoNegative()
    ensures DecrementStock([Product("p", "s", "o", "Tea", 1000, 0)], [Line("p", 1)])[0].stock == -1
  {
    Catalog.FindListed([Product("p", "s", "o", "Tea", 1000, 0)], 0);
  }

  /** `handleGenerateBill`: insert the bill, then write the new stock of every
      carted product. `billId` and `now` are what the store assigns, and
      `insertOk` is whether the insert succeeded. */
  function GenerateBill(
    session: Option<Session>, c: Cart.Cart, ps: seq<Product>, mode: PaymentMode,
    phone: string, billId: string, now: int, insertOk: bool): (o: BillOutcome)
    requires Cart.Valid(c)
    ensures o.NotReady? <==> session.None?
    ensures session.Some? ==> (o.Generated? <==> insertOk)
    ensures o.Generated? ==>
      && o.bill.shopId == session.value.shopId
      && o.bill.ownerId == session.value.userId
      && o.bill.amount == Cart.CartTotal(c, ps)
      && o.bill.items == c
      && o.bill.mode == mode.Label()
      && (o.bill.phone.Some? <==> phone != "")
      && (phone != "" ==> o.bill.phone == Some(phone))
      && o.products == DecrementStock(ps, c)
  {
    match session
    case None => NotReady
    case Some(s) =>
      if !insertOk then InsertFailed
      else
        var bill := Bill(billId, s.shopId, s.userId, Cart.CartTotal(c, ps), mode.Label(),
                         if phone == "" then None else Some(phone), c, now);
        Generated(bill, DecrementStock(ps, c))
  }

  /** A credit bill created through the enabled confirm button carries a phone,
      so the credit ledger attributes it to a customer. */
  lemma ConfirmedCreditBillHasPhone(
    session: Option<Session>, c: Cart.Cart, ps: seq<Product>,
    phone: string, billId: string, now: int)
    requires Cart.Valid(c) && session.Some?
    requires ConfirmEnabled(Credit, phone)
    ensures GenerateBill(session, c, ps, Credit, phone, billId, now, true).Generated?
    ensures var b := GenerateBill(session, c, ps, Credit, phone, billId, now, true).bill;
      IsCredit(b) && HasPhone(b) && |b.phone.value| >= 10
  {
  }

  /** `finish`: during onboarding go to the dashboard; otherwise clear the cart
      and the phone and hide the success view, keeping the payment mode. */
  function Finish(onboarding: bool, s: Screen): (a: AfterBill)
    ensures a.ToDashboard? <==> onboarding
    ensures a.Reset? ==> a.screen.cart == [] && a.screen.phone == "" && !a.screen.showSuccess
    ensures a.Reset? ==> a.screen.mode == s.mode
    ensures a.Reset? ==> Cart.CartCount(a.screen.cart) == 0 && Cart.CartTotal(a.screen.cart, []) == 0
  {
    if onboarding then ToDashboard
    else Reset(s.(cart := [], phone := "", showSuccess := false))
  }
}

=== FILE: cart.dfy ===
/** The billing cart: `addToCart`, `removeFromCart`, `cartCount` and
    `cartTotal`. The cart is a JavaScript object from product id to quantity;
    it is modelled as the list of its entries in key order, which is what
    `Object.entries` and `Object.values` walk: a new key goes to the end, an
    updated key keeps its place, a deleted key leaves the others in order. */
module Cart {

  import opened Optional
  import opened Records
  import Catalog

  type Cart = seq<Line>

  /** Where `id` sits in the cart, if it is there. */
  function IndexOf(c: Cart, id: string): (r: Option<nat>)
    ensures r.Some? ==> r.value < |c| && c[r.value].productId == id
    ensures r.Some? ==> forall j :: 0 <= j < r.value ==> c[j].productId != id
    ensures r.None? ==> forall j :: 0 <= j < |c| ==> c[j].productId != id
  {
    if |c| == 0 then None
    else if c[0].productId == id then Some(0)
    else
      match IndexOf(c[1..], id)
      case None => None
      case Some(k) => Some(k + 1)
  }

  predicate InCart(c: Cart, id: string)
  {
    IndexOf(c, id).Some?
  }

  /** `cart[id] || 0`. */
  function Qty(c: Cart, id: string): int
  {
    match IndexOf(c, id)
    case Some(i) => c[i].qty
    case None => 0
  }

  /** The cart invariant: each product appears once, with a quantity of at least 1. */
  ghost predicate Valid(c: Cart)
  {
    && (forall i, j :: 0 <= i < j < |c| ==> c[i].productId != c[j].productId)
    && (forall i :: 0 <= i < |c| ==> c[i].qty >= 1)
  }

  /** Two carts with the same ids in the same places find every id in the same place. */
  lemma IndexOfSameIds(c: Cart, d: Cart, k: string)
    requires |c| == |d|
    requires forall j :: 0 <= j < |c| ==> c[j].productId == d[j].productId
    ensures IndexOf(c, k) == IndexOf(d, k)
  {
    match IndexOf(c, k)
    case None =>
    case Some(i) =>
      assert d[i].productId == k;
  }

  /** Appending an entry for another id does not move `k`. */
  lemma IndexOfAppend(c: Cart, l: Line, k: string)
    requires l.productId != k
    ensures IndexOf(c + [l], k) == IndexOf(c, k)
  {
    match IndexOf(c, k)
    case None =>
    case Some(i) =>
      assert (c + [l])[i] == c[i];
  }

  /** Deleting the entry at `i` leaves the quantity of every other id as it was. */
  lemma QtyDelete(c: Cart, i: nat, k: string)
    requires i < |c| && c[i].productId != k
    ensures Qty(c[..i] + c[i + 1..], k) == Qty(c, k)
  {
    var d := c[..i] + c[i + 1..];
    assert forall j :: 0 <= j < i ==> d[j] == c[j];
    assert forall j :: i <= j < |d| ==> d[j] == c[j + 1];
    match IndexOf(c, k)
    case None =>
      assert IndexOf(d, k).None?;
    case Some(m) =>
      if m < i {
        assert d[m] == c[m];
        assert IndexOf(d, k) == Some(m);
      } else {
        assert d[m - 1] == c[m];
        assert IndexOf(d, k) == Some(m - 1);
      }
  }

  /** `addToCart(id)`: the quantity of `id` goes up by one (an absent id counts
      as 0); every other quantity stays. */
  function AddToCart(c: Cart, id: string): (r: Cart)
    ensures Qty(r, id) == Qty(c, id) + 1
    ensures forall k :: k != id ==> Qty(r, k) == Qty(c, k)
    ensures InCart(r, id)
    ensures forall k :: k != id ==> (InCart(r, k) <==> InCart(c, k))
    ensures Valid(c) ==> Valid(r)
  {
    match IndexOf(c, id)
    case Some(i) =>
      var r := c[i := Line(id, c[i].qty + 1)];
      forall k ensures IndexOf(r, k) == IndexOf(c, k) {
        IndexOfSameIds(r, c, k);
      }
      r
    case None =>
      var r := c + [Line(id, 1)];
      assert r[|c|].productId == id;
      assert forall j :: 0 <= j < |c| ==> r[j].productId != id;
      assert IndexOf(r, id) == Some(|c|);
      forall k | k != id ensures IndexOf(r, k) == IndexOf(c, k) {
        IndexOfAppend(c, Line(id, 1), k);
      }
      r
  }

  /** `removeFromCart(id)`: the quantity of `id` goes down by one and the entry
      is deleted when it would reach 0 or less; an absent id leaves the cart as
      it was. */
  function RemoveFromCart(c: Cart, id: string): (r: Cart)
    ensures !InCart(c, id) ==> r == c
    ensures forall k :: k != id ==> Qty(r, k) == Qty(c, k)
    ensures Valid(c) ==> Valid(r)
    ensures Valid(c) ==> Qty(r, id) == (if Qty(c, id) > 1 then Qty(c, id) - 1 else 0)
    ensures Valid(c) ==> (InCart(r, id) <==> Qty(c, id) > 1)
  {
    match IndexOf(c, id)
    case None => c
    case Some(i) =>
      var newQty := c[i].qty - 1;
      if newQty <= 0 then
        var r := c[..i] + c[i + 1..];
        forall k | k != id ensures Qty(r, k) == Qty(c, k) {
          QtyDelete(c, i, k);
        }
        assert forall j :: 0 <= j < i ==> r[j] == c[j];
        assert forall j :: i <= j < |r| ==> r[j] == c[j + 1];
        assert Valid(c) ==> IndexOf(r, id).None?;
        r
      else
        var r := c[i := Line(id, newQty)];
        forall k ensures IndexOf(r, k) == IndexOf(c, k) {
          IndexOfSameIds(r, c, k);
        }
        r
  }

  /** Adding a product and then removing it gives back the very same cart. */
  lemma AddThenRemove(c: Cart, id: string)
    requires Valid(c)
    ensures RemoveFromCart(AddToCart(c, id), id) == c
  {
    var a := AddToCart(c, id);
    match IndexOf(c, id)
    case None =>
      assert a == c + [Line(id, 1)];
      assert IndexOf(a, id) == Some(|c|);
      assert a[..|c|] + a[|c| + 1..] == c;
    case Some(i) =>
      assert a == c[i := Line(id, c[i].qty + 1)];
      IndexOfSameIds(a, c, id);
      assert a[i := Line(id, c[i].qty)] == c;
  }

  /** Removing a carted product and adding it back restores every quantity
      (the entry may move to the end of the key order). */
  lemma RemoveThenAdd(c: Cart, id: string, k: string)
    requires Valid(c) && InCart(c, id)
    ensures Qty(AddToCart(RemoveFromCart(c, id), id), k) == Qty(c, k)
  {
  }

  /** `cartCount`: the sum of the quantities. */
  function CartCount(c: Cart): int
  {
    if |c| == 0 then 0 else c[0].qty + CartCount(c[1..])
  }

  lemma {:induction false} CountConcat(a: Cart, b: Cart)
    ensures CartCount(a + b) == CartCount(a) + CartCount(b)
    decreases |a|
  {
    if |a| == 0 {
      assert a + b == b;
    } else {
      assert (a + b)[1..] == a[1..] + b;
      CountConcat(a[1..], b);
    }
  }

  lemma CountSplit(c: Cart, i: nat)
    requires i < |c|
    ensures CartCount(c) == CartCount(c[..i]) + c[i].qty + CartCount(c[i + 1..])
  {
    assert c == c[..i] + ([c[i]] + c[i + 1..]);
    CountConcat(c[..i], [c[i]] + c[i + 1..]);
  }

  /** Every add puts one more item in the cart. */
  lemma CountAfterAdd(c: Cart, id: string)
    ensures CartCount(AddToCart(c, id)) == CartCount(c) + 1
  {
    var a := AddToCart(c, id);
    match IndexOf(c, id)
    case None =>
      CountConcat(c, [Line(id, 1)]);
    case Some(i) =>
      CountSplit(c, i);
      CountSplit(a, i);
      assert a[..i] == c[..i] && a[i + 1..] == c[i + 1..];
  }

  /** Removing a carted product takes exactly one item out of a valid cart. */
  lemma CountAfterRemove(c: Cart, id: string)
    requires Valid(c) && InCart(c, id)
    ensures CartCount(RemoveFromCart(c, id)) == CartCount(c) - 1
  {
    var r := RemoveFromCart(c, id);
    var i := IndexOf(c, id).value;
    CountSplit(c, i);
    if c[i].qty - 1 <= 0 {
      CountConcat(c[..i], c[i + 1..]);
    } else {
      CountSplit(r, i);
      assert r[..i] == c[..i] && r[i + 1..] == c[i + 1..];
    }
  }

  /** The unit price `cartTotal` charges for `id`: the price of the first
      product with that id, or 0 when none matches. */
  function UnitPrice(ps: seq<Product>, id: string): int
  {
    match Catalog.FindProduct(ps, id)
    case Some(p) => p.price
    case None => 0
  }

  /** What one entry adds to the total: its unit price times its quantity. */
  function LineTotal(ps: seq<Product>, l: Line): int
  {
    UnitPrice(ps, l.productId) * l.qty
  }

  /** One more unit adds one unit price; one fewer takes one away. */
  lemma LineTotalStep(ps: seq<Product>, id: string, q: int)
    ensures LineTotal(ps, Line(id, q + 1)) == LineTotal(ps, Line(id, q)) + UnitPrice(ps, id)
  {
    var u := UnitPrice(ps, id);
    assert u * (q + 1) == u * q + u;
  }

  /** `cartTotal`: price times quantity summed over the cart's entries. */
  function CartTotal(c: Cart, ps: seq<Product>): int
  {
    if |c| == 0 then 0 else LineTotal(ps, c[0]) + CartTotal(c[1..], ps)
  }

  lemma {:induction false} TotalConcat(a: Cart, b: Cart, ps: seq<Product>)
    ensures CartTotal(a + b, ps) == CartTotal(a, ps) + CartTotal(b, ps)
    decreases |a|
  {
    if |a| == 0 {
      assert a + b == b;
    } else {
      assert (a + b)[1..] == a[1..] + b;
      TotalConcat(a[1..], b, ps);
    }
  }

  lemma TotalSplit(c: Cart, i: nat, ps: seq<Product>)
    requires i < |c|
    ensures CartTotal(c, ps) == CartTotal(c[..i], ps) + LineTotal(ps, c[i]) + CartTotal(c[i + 1..], ps)
  {
    assert c == c[..i] + ([c[i]] + c[i + 1..]);
    TotalConcat(c[..i], [c[i]] + c[i + 1..], ps);
    TotalConcat([c[i]], c[i + 1..], ps);
  }

  /** Adding a product raises the total by its unit price (by 0 when the id
      matches no product). */
  lemma TotalAfterAdd(c: Cart, id: string, ps: seq<Product>)
    ensures CartTotal(AddToCart(c, id), ps) == CartTotal(c, ps) + UnitPrice(ps, id)
  {
    var a := AddToCart(c, id);
    match IndexOf(c, id)
    case None =>
      TotalConcat(c, [Line(id, 1)], ps);
    case Some(i) =>
      assert a == c[i := Line(id, c[i].qty + 1)];
      TotalBumpAt(c, i, ps);
  }

  /** One more of the entry at `i` adds its unit price to the total. */
  lemma TotalBumpAt(c: Cart, i: nat, ps: seq<Product>)
    requires i < |c|
    ensures CartTotal(c[i := Line(c[i].productId, c[i].qty + 1)], ps) == CartTotal(c, ps) + UnitPrice(ps, c[i].productId)
  {
    var a := c[i := Line(c[i].productId, c[i].qty + 1)];
    TotalSplit(c, i, ps);
    TotalSplit(a, i, ps);
    assert a[..i] == c[..i] && a[i + 1..] == c[i + 1..];
    assert c[i] == Line(c[i].productId, c[i].qty);
    LineTotalStep(ps, c[i].productId, c[i].qty);
  }

  /** Removing a carted product lowers the total of a valid cart by its unit price. */
  lemma TotalAfterRemove(c: Cart, id: string, ps: seq<Product>)
    requires Valid(c) && InCart(c, id)
    ensures CartTotal(RemoveFromCart(c, id), ps) == CartTotal(c, ps) - UnitPrice(ps, id)
  {
    var r := RemoveFromCart(c, id);
    var i := IndexOf(c, id).value;
    var q := c[i].qty;
    TotalSplit(c, i, ps);
    if q - 1 <= 0 {
      assert q == 1;
      assert LineTotal(ps, c[i]) == UnitPrice(ps, id);
      TotalConcat(c[..i], c[i + 1..], ps);
    } else {
      TotalSplit(r, i, ps);
      assert r[..i] == c[..i] && r[i + 1..] == c[i + 1..];
      assert r[i] == Line(id, q - 1);
      assert c[i] == Line(id, (q - 1) + 1);
      LineTotalStep(ps, id, q - 1);
    }
  }
}

=== FILE: catalog.dfy ===
/** Product lookup by id (`products.find(p => p.id === id)`) and the product
    search filter that the billing page and the stock page both apply. */
module Catalog {

  import opened Optional
  import opened Records
  import Text

  /** The first product whose id is `id`. */
  function FindProduct(ps: seq<Product>, id: string): (r: Option<Product>)
    ensures r.Some? ==> r.value.id == id && r.value in ps
    ensures r.Some? ==> exists i :: 0 <= i < |ps| && ps[i] == r.value && forall j :: 0 <= j < i ==> ps[j].id != id
    ensures r.None? <==> forall j :: 0 <= j < |ps| ==> ps[j].id != id
  {
    if |ps| == 0 then None
    else if ps[0].id == id then Some(ps[0])
    else
      var r := FindProduct(ps[1..], id);
      assert r.Some? ==> ps[1..] <= ps[1..] && r.value in ps;
      r
  }

  /** No two products share an id, as the store's primary key guarantees. */
  ghost predicate DistinctIds(ps: seq<Product>)
  {
    forall i, j :: 0 <= i < j < |ps| ==> ps[i].id != ps[j].id
  }

  /** With distinct ids, looking up the id of a listed product finds that product. */
  lemma FindListed(ps: seq<Product>, i: nat)
    requires DistinctIds(ps) && i < |ps|
    ensures FindProduct(ps, ps[i].id) == Some(ps[i])
  {
  }

  /** `name.toLowerCase().includes(term.toLowerCase())`. */
  predicate Matches(name: string, term: string)
  {
    Text.Contains(Text.ToLower(name), Text.ToLower(term))
  }

  /** `products.filter(p => Matches(p.name, term))`. */
  function Search(ps: seq<Product>, term: string): (r: seq<Product>)
    ensures |r| <= |ps|
    ensures forall p :: p in r <==> p in ps && Matches(p.name, term)
  {
    if |ps| == 0 then []
    else if Matches(ps[0].name, term) then [ps[0]] + Search(ps[1..], term)
    else Search(ps[1..], term)
  }

  /** Searching distributes over concatenation, so the filter keeps the order
      of the list it is given. */
  lemma {:induction false} SearchConcat(a: seq<Product>, b: seq<Product>, term: string)
    ensures Search(a + b, term) == Search(a, term) + Search(b, term)
    decreases |a|
  {
    if |a| == 0 {
      assert a + b == b;
    } else {
      assert (a + b)[1..] == a[1..] + b;
      SearchConcat(a[1..], b, term);
    }
  }

  /** An empty search keeps every product, in order. */
  lemma {:induction false} SearchEmpty(ps: seq<Product>)
    ensures Search(ps, "") == ps
    decreases |ps|
  {
    if |ps| > 0 {
      Text.ContainsEmpty(Text.ToLower(ps[0].name));
      assert Text.ToLower("") == "";
      SearchEmpty(ps[1..]);
    }
  }

  /** The search ignores the case of the term. */
  lemma SearchIgnoresCase(ps: seq<Product>, term: string)
    ensures Search(ps, Text.ToUpper(term)) == Search(ps, term)
  {
    assert Text.ToLower(Text.ToUpper(term)) == Text.ToLower(term);
    SearchSameLower(ps, Text.ToUpper(term), term);
  }

  lemma {:induction false} SearchSameLower(ps: seq<Product>, s: string, t: string)
    requires Text.ToLower(s) == Text.ToLower(t)
    ensures Search(ps, s) == Search(ps, t)
    decreases |ps|
  {
    if |ps| > 0 {
      SearchSameLower(ps[1..], s, t);
    }
  }
}

=== FILE: credit.dfy ===
/** The credit (udhaar) page: credit bills grouped by customer phone into the
    amount due and the latest bill date, sorted by amount due, with the total
    pending; plus the phone display format and the reminder text. */
module Credit {

  import opened Optional
  import opened Records
  import Text
  import Ledger

  /** `CreditEntry`: one customer, by phone. */
  datatype Entry = Entry(customer: string, totalDue: int, lastBillDate: int)

  /** What the page shows: the sorted list and `totalPending`. */
  datatype CreditView = CreditView(credits: seq<Entry>, totalPending: int)

  /** The sum of the amounts of the bills carrying `phone`. */
  function Due(bills: seq<Bill>, phone: string): int
  {
    if |bills| == 0 then 0
    else
      var b := bills[|bills| - 1];
      Due(bills[..|bills| - 1], phone) + (if b.phone == Some(phone) then b.amount else 0)
  }

  /** The sum of the amounts of the bills that carry a phone at all. */
  function PhoneTotal(bills: seq<Bill>): int
  {
    if |bills| == 0 then 0
    else
      var b := bills[|bills| - 1];
      PhoneTotal(bills[..|bills| - 1]) + (if HasPhone(b) then b.amount else 0)
  }

  /** `t` is the latest `created_at` among the bills carrying `phone`. */
  ghost predicate IsLatest(bills: seq<Bill>, phone: string, t: int)
  {
    && (exists j :: 0 <= j < |bills| && bills[j].phone == Some(phone) && bills[j].createdAt == t)
    && (forall j :: 0 <= j < |bills| && bills[j].phone == Some(phone) ==> bills[j].createdAt <= t)
  }

  /** The phones the bills carry. */
  ghost function Phones(bills: seq<Bill>): set<string>
  {
    set j | 0 <= j < |bills| && HasPhone(bills[j]) :: bills[j].phone.value
  }

  ghost function Customers(g: seq<Entry>): set<string>
  {
    set k | 0 <= k < |g| :: g[k].customer
  }

  ghost predicate DistinctCustomers(g: seq<Entry>)
  {
    forall i, j :: 0 <= i < j < |g| ==> g[i].customer != g[j].customer
  }

  /** Every entry is the sum and the latest date of its customer's bills. */
  ghost predicate Faithful(bills: seq<Bill>, g: seq<Entry>)
  {
    forall k :: 0 <= k < |g| ==>
      && g[k].customer != ""
      && g[k].totalDue == Due(bills, g[k].customer)
      && IsLatest(bills, g[k].customer, g[k].lastBillDate)
  }

  /** Where `phone` sits in the map, if it has an entry yet. */
  function EntryIndex(g: seq<Entry>, phone: string): (r: Option<nat>)
    ensures r.Some? ==> r.value < |g| && g[r.value].customer == phone
    ensures r.None? ==> forall k :: 0 <= k < |g| ==> g[k].customer != phone
  {
    if |g| == 0 then None
    else if g[0].customer == phone then Some(0)
    else
      match EntryIndex(g[1..], phone)
      case None => None
      case Some(k) => Some(k + 1)
  }

  /** One step of the `forEach`: create the customer's entry if missing, add
      the amount, and move the date forward if the bill is newer. */
  function Upsert(g: seq<Entry>, b: Bill): seq<Entry>
    requires HasPhone(b)
  {
    var phone := b.phone.value;
    match EntryIndex(g, phone)
    case None => g + [Entry(phone, b.amount, b.createdAt)]
    case Some(i) =>
      var e := g[i];
      g[i := Entry(phone, e.totalDue + b.amount, if b.createdAt > e.lastBillDate then b.createdAt else e.lastBillDate)]
  }

  /** `customerMap`, as its entries in key order: bills without a phone are skipped. */
  function Group(bills: seq<Bill>): seq<Entry>
  {
    if |bills| == 0 then []
    else
      var g := Group(bills[..|bills| - 1]);
      var b := bills[|bills| - 1];
      if HasPhone(b) then Upsert(g, b) else g
  }

  lemma {:induction false} DueWithoutBills(bills: seq<Bill>, phone: string)
    requires forall j :: 0 <= j < |bills| ==> bills[j].phone != Some(phone)
    ensures Due(bills, phone) == 0
    decreases |bills|
  {
    if |bills| > 0 {
      DueWithoutBills(bills[..|bills| - 1], phone);
    }
  }

  /** The grouping holds one entry per distinct phone, and each entry's due and
      date are the sum and the maximum over that phone's bills. */
  lemma {:induction false} GroupSound(bills: seq<Bill>)
    ensures DistinctCustomers(Group(bills))
    ensures Faithful(bills, Group(bills))
    ensures Customers(Group(bills)) == Phones(bills)
    decreases |bills|
  {
    if |bills| > 0 {
      var init := bills[..|bills| - 1];
      var b := bills[|bills| - 1];
      var g := Group(init);
      GroupSound(init);
      assert bills == init + [b];
      if HasPhone(b) {
        UpsertSound(init, g, b);
      } else {
        PhonesAppend(init, b);
        forall k | 0 <= k < |g|
          ensures g[k].totalDue == Due(bills, g[k].customer)
          ensures IsLatest(bills, g[k].customer, g[k].lastBillDate)
        {
          OtherEntryStays(init, b, g[k]);
        }
      }
    }
  }

  lemma PhonesAppend(init: seq<Bill>, b: Bill)
    ensures Phones(init + [b]) == Phones(init) + (if HasPhone(b) then {b.phone.value} else {})
  {
    var bills := init + [b];
    assert forall j :: 0 <= j < |init| ==> bills[j] == init[j];
    forall x | x in Phones(bills) ensures x in Phones(init) + (if HasPhone(b) then {b.phone.value} else {}) {
      var j :| 0 <= j < |bills| && HasPhone(bills[j]) && bills[j].phone.value == x;
      if j < |init| { assert HasPhone(init[j]); }
    }
    forall x | x in Phones(init) ensures x in Phones(bills) {
      var j :| 0 <= j < |init| && HasPhone(init[j]) && init[j].phone.value == x;
      assert bills[j] == init[j];
    }
    if HasPhone(b) {
      assert bills[|init|] == b;
    }
  }

  /** An entry for another customer stays faithful when `b` is appended. */
  lemma OtherEntryStays(init: seq<Bill>, b: Bill, e: Entry)
    requires b.phone != Some(e.customer)
    requires e.totalDue == Due(init, e.customer) && IsLatest(init, e.customer, e.lastBillDate)
    ensures e.totalDue == Due(init + [b], e.customer) && IsLatest(init + [b], e.customer, e.lastBillDate)
  {
    var bills := init + [b];
    assert bills[..|bills| - 1] == init;
    assert forall j :: 0 <= j < |init| ==> bills[j] == init[j];
    var j :| 0 <= j < |init| && init[j].phone == Some(e.customer) && init[j].createdAt == e.lastBillDate;
    assert bills[j] == init[j];
  }

  lemma UpsertSound(init: seq<Bill>, g: seq<Entry>, b: Bill)
    requires HasPhone(b)
    requires DistinctCustomers(g) && Faithful(init, g) && Customers(g) == Phones(init)
    ensures DistinctCustomers(Upsert(g, b))
    ensures Faithful(init + [b], Upsert(g, b))
    ensures Customers(Upsert(g, b)) == Phones(init + [b])
  {
    PhonesAppend(init, b);
    match EntryIndex(g, b.phone.value)
    case None => UpsertNew(init, g, b);
    case Some(i) => UpsertExisting(init, g, b, i);
  }

  lemma UpsertNew(init: seq<Bill>, g: seq<Entry>, b: Bill)
    requires HasPhone(b) && EntryIndex(g, b.phone.value).None?
    requires DistinctCustomers(g) && Faithful(init, g) && Customers(g) == Phones(init)
    ensures DistinctCustomers(Upsert(g, b))
    ensures Faithful(init + [b], Upsert(g, b))
    ensures Customers(Upsert(g, b)) == Customers(g) + {b.phone.value}
  {
    var bills := init + [b];
    var p := b.phone.value;
    var e := Entry(p, b.amount, b.createdAt);
    var u := g + [e];
    assert Upsert(g, b) == u;
    assert p !in Customers(g);
    FirstBillOfCustomer(init, b);
    forall k | 0 <= k < |u|
      ensures u[k].totalDue == Due(bills, u[k].customer)
      ensures IsLatest(bills, u[k].customer, u[k].lastBillDate)
    {
      if k < |g| {
        assert u[k] == g[k];
        OtherEntryStays(init, b, g[k]);
      }
    }
    forall x | x in Customers(u) ensures x in Customers(g) + {p} {
      var k :| 0 <= k < |u| && u[k].customer == x;
      if k < |g| { assert u[k] == g[k]; }
    }
    forall x | x in Customers(g) ensures x in Customers(u) {
      var k :| 0 <= k < |g| && g[k].customer == x;
      assert u[k] == g[k];
    }
    assert u[|g|].customer == p;
  }

  /** The first bill of a phone makes an entry of its own amount and date. */
  lemma FirstBillOfCustomer(init: seq<Bill>, b: Bill)
    requires HasPhone(b) && b.phone.value !in Phones(init)
    ensures Due(init + [b], b.phone.value) == b.amount
    ensures IsLatest(init + [b], b.phone.value, b.createdAt)
  {
    var bills := init + [b];
    var p := b.phone.value;
    assert forall j :: 0 <= j < |init| && HasPhone(init[j]) ==> init[j].phone.value in Phones(init);
    DueWithoutBills(init, p);
    assert bills[..|bills| - 1] == init;
    assert forall j :: 0 <= j < |init| ==> bills[j] == init[j];
    assert bills[|init|] == b;
  }

  lemma UpsertExisting(init: seq<Bill>, g: seq<Entry>, b: Bill, i: nat)
    requires HasPhone(b) && EntryIndex(g, b.phone.value) == Some(i)
    requires DistinctCustomers(g) && Faithful(init, g)
    ensures DistinctCustomers(Upsert(g, b))
    ensures Faithful(init + [b], Upsert(g, b))
    ensures Customers(Upsert(g, b)) == Customers(g)
  {
    var bills := init + [b];
    var p := b.phone.value;
    var e := g[i];
    var t := if b.createdAt > e.lastBillDate then b.createdAt else e.lastBillDate;
    var n := Entry(p, e.totalDue + b.amount, t);
    var u := g[i := n];
    assert Upsert(g, b) == u;
    NextBillOfCustomer(init, b, e);
    forall k | 0 <= k < |u|
      ensures u[k].customer != ""
      ensures u[k].totalDue == Due(bills, u[k].customer)
      ensures IsLatest(bills, u[k].customer, u[k].lastBillDate)
    {
      if k != i {
        assert u[k] == g[k];
        OtherEntryStays(init, b, g[k]);
      }
    }
    SameCustomerUpdate(g, i, n);
  }

  /** A further bill of a customer adds its amount to the entry and keeps the
      later of the two dates. */
  lemma NextBillOfCustomer(init: seq<Bill>, b: Bill, e: Entry)
    requires HasPhone(b) && e.customer == b.phone.value
    requires e.totalDue == Due(init, e.customer) && IsLatest(init, e.customer, e.lastBillDate)
    ensures e.totalDue + b.amount == Due(init + [b], e.customer)
    ensures IsLatest(init + [b], e.customer, if b.createdAt > e.lastBillDate then b.createdAt else e.lastBillDate)
  {
    var bills := init + [b];
    assert bills[..|bills| - 1] == init;
    assert forall j :: 0 <= j < |init| ==> bills[j] == init[j];
    var j :| 0 <= j < |init| && init[j].phone == Some(e.customer) && init[j].createdAt == e.lastBillDate;
    assert bills[j] == init[j];
    assert bills[|init|] == b;
  }

  /** Replacing an entry by one for the same customer keeps the customers and
      their distinctness. */
  lemma SameCustomerUpdate(g: seq<Entry>, i: nat, n: Entry)
    requires i < |g| && g[i].customer == n.customer
    ensures Customers(g[i := n]) == Customers(g)
    ensures DistinctCustomers(g) ==> DistinctCustomers(g[i := n])
  {
    var u := g[i := n];
    assert forall k :: 0 <= k < |g| ==> u[k].customer == g[k].customer;
    forall x | x in Customers(u) ensures x in Customers(g) {
      var k :| 0 <= k < |u| && u[k].customer == x;
      assert g[k].customer == x;
    }
    forall x | x in Customers(g) ensures x in Customers(u) {
      var k :| 0 <= k < |g| && g[k].customer == x;
      assert u[k].customer == x;
    }
  }

  /** `b.totalDue - a.totalDue` read as a sort order: non-increasing dues. */
  ghost predicate SortedByDue(s: seq<Entry>)
  {
    forall i, j :: 0 <= i < j < |s| ==> s[i].totalDue >= s[j].totalDue
  }

  /** `list.reduce((acc, curr) => acc + curr.totalDue, 0)`. */
  function DueSum(s: seq<Entry>): int
  {
    if |s| == 0 then 0 else s[0].totalDue + DueSum(s[1..])
  }

  /** Places `e` before the first entry whose due is not larger, so entries
      with equal dues keep their relative order, as a stable sort does. */
  function InsertByDue(e: Entry, s: seq<Entry>): (r: seq<Entry>)
    ensures |r| == |s| + 1
    ensures multiset(r) == multiset(s) + multiset{e}
    ensures DueSum(r) == DueSum(s) + e.totalDue
  {
    if |s| == 0 then [e]
    else if s[0].totalDue <= e.totalDue then
      assert ([e] + s)[1..] == s;
      [e] + s
    else
      var rest := InsertByDue(e, s[1..]);
      assert ([s[0]] + rest)[1..] == rest;
      assert s == [s[0]] + s[1..];
      [s[0]] + rest
  }

  lemma {:induction false} InsertSorted(e: Entry, s: seq<Entry>)
    requires SortedByDue(s)
    ensures SortedByDue(InsertByDue(e, s))
    decreases |s|
  {
    if |s| == 0 {
    } else if s[0].totalDue <= e.totalDue {
      assert InsertByDue(e, s) == [e] + s;
      ConsSorted(e, s);
    } else {
      var rest := InsertByDue(e, s[1..]);
      assert InsertByDue(e, s) == [s[0]] + rest;
      assert SortedByDue(s[1..]);
      InsertSorted(e, s[1..]);
      forall k | 0 <= k < |rest| ensures s[0].totalDue >= rest[k].totalDue {
        InsertedFrom(e, s[1..], k);
      }
      ConsSorted(s[0], rest);
    }
  }

  /** An entry no smaller than every entry of a sorted list can go in front of it. */
  lemma ConsSorted(h: Entry, rest: seq<Entry>)
    requires SortedByDue(rest)
    requires |rest| > 0 ==> h.totalDue >= rest[0].totalDue
    ensures SortedByDue([h] + rest)
  {
    var r := [h] + rest;
    forall i, j | 0 <= i < j < |r| ensures r[i].totalDue >= r[j].totalDue {
      assert r[j] == rest[j - 1];
      if i > 0 { assert r[i] == rest[i - 1]; }
    }
  }

  /** Every entry after the insertion is the inserted one or came from the list. */
  lemma InsertedFrom(e: Entry, s: seq<Entry>, k: nat)
    requires k < |InsertByDue(e, s)|
    ensures InsertByDue(e, s)[k] == e || InsertByDue(e, s)[k] in s
  {
    var r := InsertByDue(e, s);
    assert r[k] in multiset(r);
  }

  lemma {:induction false} InsertDistinct(e: Entry, s: seq<Entry>)
    requires DistinctCustomers(s)
    requires forall x :: x in s ==> x.customer != e.customer
    ensures DistinctCustomers(InsertByDue(e, s))
    decreases |s|
  {
    if |s| == 0 {
    } else if s[0].totalDue <= e.totalDue {
      assert InsertByDue(e, s) == [e] + s;
      ConsDistinct(e, s);
    } else {
      var rest := InsertByDue(e, s[1..]);
      assert InsertByDue(e, s) == [s[0]] + rest;
      assert DistinctCustomers(s[1..]);
      InsertDistinct(e, s[1..]);
      forall x | x in rest ensures x.customer != s[0].customer {
        var k :| 0 <= k < |rest| && rest[k] == x;
        InsertedFrom(e, s[1..], k);
        if x != e {
          var j :| 0 <= j < |s[1..]| && s[1..][j] == x;
          assert s[j + 1] == x;
        }
      }
      ConsDistinct(s[0], rest);
    }
  }

  /** An entry whose customer is new can go in front of a list of distinct customers. */
  lemma ConsDistinct(h: Entry, rest: seq<Entry>)
    requires DistinctCustomers(rest)
    requires forall x :: x in rest ==> x.customer != h.customer
    ensures DistinctCustomers([h] + rest)
  {
    var r := [h] + rest;
    forall i, j | 0 <= i < j < |r| ensures r[i].customer != r[j].customer {
      assert r[j] == rest[j - 1];
      if i > 0 { assert r[i] == rest[i - 1]; }
    }
  }

  /** `Object.values(customerMap).sort(...)`: insertion sort, stable. */
  function SortByDue(s: seq<Entry>): (r: seq<Entry>)
    ensures |r| == |s|
    ensures multiset(r) == multiset(s)
    ensures DueSum(r) == DueSum(s)
  {
    if |s| == 0 then []
    else
      assert s == [s[0]] + s[1..];
      InsertByDue(s[0], SortByDue(s[1..]))
  }

  /** The sorted list has non-increasing dues, and keeps customers distinct. */
  lemma {:induction false} SortSound(s: seq<Entry>)
    ensures SortedByDue(SortByDue(s))
    ensures DistinctCustomers(s) ==> DistinctCustomers(SortByDue(s))
    decreases |s|
  {
    if |s| > 0 {
      var rest := SortByDue(s[1..]);
      SortSound(s[1..]);
      InsertSorted(s[0], rest);
      if DistinctCustomers(s) {
        assert DistinctCustomers(s[1..]);
        forall x | x in rest ensures x.customer != s[0].customer {
          assert x in multiset(rest);
          var j :| 0 <= j < |s[1..]| && s[1..][j] == x;
          assert s[j + 1] == x;
        }
        InsertDistinct(s[0], rest);
      }
    }
  }

  lemma {:induction false} DueSumConcat(a: seq<Entry>, b: seq<Entry>)
    ensures DueSum(a + b) == DueSum(a) + DueSum(b)
    decreases |a|
  {
    if |a| == 0 {
      assert a + b == b;
    } else {
      assert (a + b)[1..] == a[1..] + b;
      DueSumConcat(a[1..], b);
    }
  }

  lemma DueSumUpdate(g: seq<Entry>, i: nat, e: Entry)
    requires i < |g|
    ensures DueSum(g[i := e]) == DueSum(g) - g[i].totalDue + e.totalDue
  {
    assert g == g[..i] + ([g[i]] + g[i + 1..]);
    assert g[i := e] == g[..i] + ([e] + g[i + 1..]);
    DueSumConcat(g[..i], [g[i]] + g[i + 1..]);
    DueSumConcat(g[..i], [e] + g[i + 1..]);
  }

  /** The dues of the grouping add up to the amounts of the bills with a phone. */
  lemma {:induction false} GroupDueSum(bills: seq<Bill>)
    ensures DueSum(Group(bills)) == PhoneTotal(bills)
    decreases |bills|
  {
    if |bills| > 0 {
      var init := bills[..|bills| - 1];
      var b := bills[|bills| - 1];
      var g := Group(init);
      GroupDueSum(init);
      if HasPhone(b) {
        match EntryIndex(g, b.phone.value)
        case None =>
          DueSumConcat(g, [Entry(b.phone.value, b.amount, b.createdAt)]);
        case Some(i) =>
          DueSumUpdate(g, i, Upsert(g, b)[i]);
          assert Upsert(g, b) == g[i := Upsert(g, b)[i]];
      }
    }
  }

  /** The bills the page reads: this shop's credit bills. */
  function CreditQuery(store: seq<Bill>, shopId: string): seq<Bill>
  {
    Ledger.CreditOnly(Ledger.OfShop(store, shopId))
  }

  /** The credit page after loading. A failed query (`!bills`) leaves the
      initial empty list and 0. */
  function View(rows: Option<seq<Bill>>): (v: CreditView)
    ensures rows.None? ==> v == CreditView([], 0)
    ensures rows.Some? ==>
      var bills := rows.value;
      && SortedByDue(v.credits)
      && multiset(v.credits) == multiset(Group(bills))
      && DistinctCustomers(v.credits)
      && Faithful(bills, v.credits)
      && Customers(v.credits) == Phones(bills)
      && v.totalPending == DueSum(v.credits) == PhoneTotal(bills)
  {
    match rows
    case None => CreditView([], 0)
    case Some(bills) =>
      var g := Group(bills);
      GroupSound(bills);
      GroupDueSum(bills);
      var list := SortByDue(g);
      SortSound(g);
      SortedStaysFaithful(bills, g, list);
      CreditView(list, DueSum(list))
  }

  /** Reordering the entries keeps them faithful and keeps the customer set. */
  lemma SortedStaysFaithful(bills: seq<Bill>, g: seq<Entry>, list: seq<Entry>)
    requires multiset(list) == multiset(g)
    requires Faithful(bills, g)
    ensures Faithful(bills, list)
    ensures Customers(list) == Customers(g)
  {
    forall k | 0 <= k < |list|
      ensures list[k].customer != ""
      ensures list[k].totalDue == Due(bills, list[k].customer)
      ensures IsLatest(bills, list[k].customer, list[k].lastBillDate)
    {
      assert list[k] in multiset(g);
      var k' :| 0 <= k' < |g| && g[k'] == list[k];
    }
    forall x | x in Customers(list) ensures x in Customers(g) {
      var k :| 0 <= k < |list| && list[k].customer == x;
      assert list[k] in multiset(g);
      var k' :| 0 <= k' < |g| && g[k'] == list[k];
    }
    forall x | x in Customers(g) ensures x in Customers(list) {
      var k :| 0 <= k < |g| && g[k].customer == x;
      assert g[k] in multiset(list);
      var k' :| 0 <= k' < |list| && list[k'] == g[k];
    }
  }

  /** No bills, no customers: an empty list and nothing pending. */
  lemma ViewOfNoBills()
    ensures View(Some([])) == CreditView([], 0)
  {
  }

  /** One credit bill of 250 rupees for "9000000000". */
  lemma ViewOfOneCustomer()
    ensures
      var b := Bill("b1", "s", "o", 25000, CREDIT, Some("9000000000"), [], 7);
      View(Some([b])) == CreditView([Entry("9000000000", 25000, 7)], 25000)
  {
    var b := Bill("b1", "s", "o", 25000, CREDIT, Some("9000000000"), [], 7);
    assert [b][..0] == [];
    assert Group([b]) == [Entry("9000000000", 25000, 7)];
  }

  /** Ten ASCII digits start at `i`. */
  predicate DigitRunAt(s: string, i: int)
  {
    0 <= i && i + 10 <= |s| && forall k :: i <= k < i + 10 ==> Text.IsDigit(s[k])
  }

  /** The leftmost match of `(\d{5})(\d{5})` at or after `from`. */
  function FirstRun(s: string, from: nat): (r: Option<nat>)
    ensures r.Some? ==> from <= r.value && DigitRunAt(s, r.value)
    ensures r.Some? ==> forall j :: from <= j < r.value ==> !DigitRunAt(s, j)
    ensures r.None? ==> forall j :: from <= j ==> !DigitRunAt(s, j)
    decreases |s| - from
  {
    if from + 10 > |s| then None
    else if DigitRunAt(s, from) then Some(from)
    else FirstRun(s, from + 1)
  }

  /** `i` is where the regular expression matches: the leftmost run. */
  predicate IsFirstRun(s: string, i: int)
  {
    DigitRunAt(s, i) && forall j :: 0 <= j < i ==> !DigitRunAt(s, j)
  }

  /** `s` with a space after its first five characters from `i` on. */
  function SpaceAt(s: string, i: nat): (r: string)
    requires i + 5 <= |s|
    ensures |r| == |s| + 1
    ensures r[..i + 5] == s[..i + 5] && r[i + 5] == ' ' && r[i + 6..] == s[i + 5..]
  {
    s[..i + 5] + " " + s[i + 5..]
  }

  lemma FirstRunUnique(s: string, i: int, i': int)
    requires IsFirstRun(s, i) && IsFirstRun(s, i')
    ensures i == i'
  {
  }

  /** `customer.replace(/(\d{5})(\d{5})/, '$1 $2')`. */
  function FormatPhone(s: string): (r: string)
    ensures (forall j :: !DigitRunAt(s, j)) ==> r == s
    ensures forall i :: IsFirstRun(s, i) ==> i + 5 <= |s| && r == SpaceAt(s, i)
  {
    match FirstRun(s, 0)
    case None => s
    case Some(i) =>
      assert IsFirstRun(s, i);
      forall i' | IsFirstRun(s, i') ensures i' == i {
        FirstRunUnique(s, i, i');
      }
      SpaceAt(s, i)
  }

  /** Formatting only inserts one space in the middle of the first ten-digit
      run: taking that space out gives the phone back. */
  lemma FormatPhoneInsertsOneSpace(s: string)
    ensures FormatPhone(s) == s ||
      exists i :: DigitRunAt(s, i) && FormatPhone(s)[i + 5] == ' ' &&
        FormatPhone(s)[..i + 5] + FormatPhone(s)[i + 6..] == s
  {
    match FirstRun(s, 0)
    case None =>
    case Some(i) =>
      assert IsFirstRun(s, i);
      var r := FormatPhone(s);
      assert r == SpaceAt(s, i);
      assert s[..i + 5] + s[i + 5..] == s;
      assert DigitRunAt(s, i) && r[i + 5] == ' ' && r[..i + 5] + r[i + 6..] == s;
  }

  /** A ten-digit phone is shown as two groups of five. */
  lemma FormatTenDigits(d: string)
    requires |d| == 10 && Text.AllDigits(d)
    ensures FormatPhone(d) == d[..5] + " " + d[5..]
  {
    assert DigitRunAt(d, 0);
  }

  /** The shop the reminder names: `shopName || 'our shop'`. */
  function ShopLabel(shopName: string): (l: string)
    ensures l != ""
    ensures shopName != "" ==> l == shopName
    ensures shopName == "" ==> l == "our shop"
  {
    if shopName == "" then "our shop" else shopName
  }

  /** The reminder text of `sendReminder`, given the rendered amount. */
  function ReminderText(amountText: string, shopName: string): (t: string)
    ensures Text.Contains(t, ShopLabel(shopName))
    ensures shopName == "" ==> Text.Contains(t, "our shop")
    ensures shopName != "" ==> Text.Contains(t, shopName)
    ensures Text.Contains(t, amountText)
  {
    var greeting := "Hello! A gentle reminder to pay the pending amount of ₹";
    var head := greeting + amountText + " at ";
    var t := head + ShopLabel(shopName) + ". Thank you!";
    assert t[|greeting|..|greeting| + |amountText|] == amountText;
    assert Text.OccursAt(t, amountText, |greeting|);
    assert t[|head|..|head| + |ShopLabel(shopName)|] == ShopLabel(shopName);
    assert Text.OccursAt(t, ShopLabel(shopName), |head|);
    t
  }
}

=== FILE: daily_summary.dfy ===
/** The daily summary job (`GET /api/cron/daily-summary`): which shops are
    eligible, which of those run in the current hour, the cash/UPI/credit split
    of today's bills, the all-time pending credit, and the simulation mode used
    when the service key is missing. */
module DailySummary {

  import opened Optional
  import opened Records
  import Text
  import Ledger
  import Plans

  /** `daily_summary_time` when the column is empty. */
  const DEFAULT_TIME: string := "21:00"

  /** Today's sales split by payment mode. */
  datatype Breakdown = Breakdown(totalSales: int, cash: int, upi: int, credit: int)

  /** What is sent to the owner of one processed shop. */
  datatype Summary = Summary(shopName: string, ownerId: string, sales: Breakdown, totalPending: int)

  /** The shops query: plan exactly "BASIC" or "PRO", and the summary switched on. */
  predicate Eligible(shop: Shop)
  {
    (shop.subscriptionPlan == "BASIC" || shop.subscriptionPlan == "PRO") && shop.dailySummaryEnabled
  }

  function EligibleShops(shops: seq<Shop>): (r: seq<Shop>)
    ensures forall s :: s in r <==> s in shops && Eligible(s)
  {
    if |shops| == 0 then []
    else
      var s := shops[|shops| - 1];
      EligibleShops(shops[..|shops| - 1]) + (if Eligible(s) then [s] else [])
  }

  /** `parseInt` of the text before the first ':'. */
  function HourOf(time: string): Option<int>
  {
    Text.ParseInt(Text.Before(time, ':'))
  }

  /** `daily_summary_time || '21:00'`. */
  function TimeSetting(shop: Shop): (t: string)
    ensures t != ""
    ensures shop.dailySummaryTime != "" ==> t == shop.dailySummaryTime
  {
    if shop.dailySummaryTime == "" then DEFAULT_TIME else shop.dailySummaryTime
  }

  /** The hour at which the shop's summary is due. */
  function TargetHour(shop: Shop): Option<int>
  {
    HourOf(TimeSetting(shop))
  }

  /** A shop is processed when forced, or when its hour is the current hour;
      NaN equals no hour. */
  predicate RunsNow(shop: Shop, force: bool, currentHour: int)
  {
    force || TargetHour(shop) == Some(currentHour)
  }

  /** The shops the loop processes, in order. */
  function Selected(shops: seq<Shop>, force: bool, currentHour: int): (r: seq<Shop>)
    ensures |r| <= |shops|
    ensures forall s :: s in r <==> s in shops && RunsNow(s, force, currentHour)
  {
    if |shops| == 0 then []
    else
      var s := shops[|shops| - 1];
      Selected(shops[..|shops| - 1], force, currentHour) + (if RunsNow(s, force, currentHour) then [s] else [])
  }

  /** The split of `bills`, bucket by bucket; the reference for `Aggregate`. */
  function SplitOf(bills: seq<Bill>): Breakdown
  {
    Breakdown(Ledger.Total(bills), Ledger.ModeTotal(bills, CASH), Ledger.ModeTotal(bills, UPI), Ledger.ModeTotal(bills, CREDIT))
  }

  /** The `forEach` over today's bills: every amount goes to the total, and to
      cash, else UPI, else credit, else to no bucket. */
  method Aggregate(bills: seq<Bill>) returns (s: Breakdown)
    ensures s == SplitOf(bills)
    ensures s.totalSales == s.cash + s.upi + s.credit + Ledger.OtherTotal(bills)
  {
    s := Breakdown(0, 0, 0, 0);
    var i := 0;
    while i < |bills|
      invariant 0 <= i <= |bills|
      invariant s == SplitOf(bills[..i])
    {
      var b := bills[i];
      var amt := b.amount;
      s := s.(totalSales := s.totalSales + amt);
      if b.mode == CASH {
        s := s.(cash := s.cash + amt);
      } else if b.mode == UPI {
        s := s.(upi := s.upi + amt);
      } else if b.mode == CREDIT {
        s := s.(credit := s.credit + amt);
      }
      assert bills[..i + 1][..i] == bills[..i];
      i := i + 1;
    }
    assert bills[..i] == bills;
    Ledger.BucketsPartitionTotal(bills);
  }

  /** The summary of one processed shop: today's bills of the shop, split by
      mode, and the shop's credit bills of all time. */
  function SummaryOf(shop: Shop, store: seq<Bill>, startOfDay: int): Summary
  {
    var mine := Ledger.OfShop(store, shop.id);
    Summary(shop.name, shop.ownerId, SplitOf(Ledger.Since(mine, startOfDay)), Ledger.Total(Ledger.CreditOnly(mine)))
  }

  function Summaries(shops: seq<Shop>, store: seq<Bill>, startOfDay: int): (r: seq<Summary>)
    ensures |r| == |shops|
    ensures forall i :: 0 <= i < |shops| ==> r[i] == SummaryOf(shops[i], store, startOfDay)
  {
    if |shops| == 0 then []
    else Summaries(shops[..|shops| - 1], store, startOfDay) + [SummaryOf(shops[|shops| - 1], store, startOfDay)]
  }

  /** One more shop through the loop adds its summary exactly when it is due. */
  lemma LoopStep(eligible: seq<Shop>, i: nat, force: bool, currentHour: int, store: seq<Bill>, startOfDay: int)
    requires i < |eligible|
    ensures Summaries(Selected(eligible[..i + 1], force, currentHour), store, startOfDay)
      == Summaries(Selected(eligible[..i], force, currentHour), store, startOfDay)
         + (if RunsNow(eligible[i], force, currentHour) then [SummaryOf(eligible[i], store, startOfDay)] else [])
  {
    SelectedStep(eligible, i, force, currentHour);
    if RunsNow(eligible[i], force, currentHour) {
      SummariesAppend(Selected(eligible[..i], force, currentHour), eligible[i], store, startOfDay);
    } else {
      assert Selected(eligible[..i], force, currentHour) + [] == Selected(eligible[..i], force, currentHour);
    }
  }

  /** One more shop through the loop. */
  lemma SelectedStep(shops: seq<Shop>, i: nat, force: bool, currentHour: int)
    requires i < |shops|
    ensures Selected(shops[..i + 1], force, currentHour)
      == Selected(shops[..i], force, currentHour) + (if RunsNow(shops[i], force, currentHour) then [shops[i]] else [])
  {
    assert shops[..i + 1][..i] == shops[..i];
  }

  lemma SummariesAppend(shops: seq<Shop>, shop: Shop, store: seq<Bill>, startOfDay: int)
    ensures Summaries(shops + [shop], store, startOfDay) == Summaries(shops, store, startOfDay) + [SummaryOf(shop, store, startOfDay)]
  {
    assert (shops + [shop])[..|shops|] == shops;
  }

  /** With `force`, every eligible shop is processed. */
  lemma {:induction false} ForceSelectsAll(shops: seq<Shop>, currentHour: int)
    ensures Selected(shops, true, currentHour) == shops
    decreases |shops|
  {
    if |shops| > 0 {
      ForceSelectsAll(shops[..|shops| - 1], currentHour);
      assert shops[..|shops| - 1] + [shops[|shops| - 1]] == shops;
    }
  }

  /** A shop whose hour text has no leading number only runs when forced. */
  lemma NaNHourNeverMatches(shop: Shop, currentHour: int)
    requires TargetHour(shop) == None
    ensures RunsNow(shop, false, currentHour) == false
  {
  }

  /** A shop without a configured time runs at 21:00. */
  lemma DefaultRunsAtNine(shop: Shop)
    requires shop.dailySummaryTime == ""
    ensures TargetHour(shop) == Some(21)
  {
    assert TimeSetting(shop) == DEFAULT_TIME;
    assert DEFAULT_TIME == "21" + ([':'] + "00");
    assert Text.AllDigits("21") by { assert Text.IsDigit('2') && Text.IsDigit('1'); }
    HourOfText(DEFAULT_TIME, "21", "00");
    assert Text.DigitsValue("21") == 21 by { assert "21"[..1] == "2"; }
  }

  /** A time written "HH:MM" runs in hour HH, leading zero or not. */
  lemma HourOfTime(shop: Shop, hh: string, rest: string)
    requires |hh| > 0 && Text.AllDigits(hh)
    requires shop.dailySummaryTime == hh + ([':'] + rest)
    ensures TargetHour(shop) == Some(Text.DigitsValue(hh))
  {
    assert shop.dailySummaryTime != "" by {
      assert |shop.dailySummaryTime| > |hh|;
    }
    HourOfText(shop.dailySummaryTime, hh, rest);
  }

  lemma HourOfText(t: string, hh: string, rest: string)
    requires |hh| > 0 && Text.AllDigits(hh)
    requires t == hh + ([':'] + rest)
    ensures Text.ParseInt(Text.Before(t, ':')) == Some(Text.DigitsValue(hh))
  {
    DigitsHaveNoColon(hh);
    BeforeSeparator(hh, [':'] + rest);
    ParseIntOfAllDigits(hh);
  }

  lemma DigitsHaveNoColon(hh: string)
    requires Text.AllDigits(hh)
    ensures ':' !in hh
  {
    forall k | 0 <= k < |hh| ensures hh[k] != ':' {
      assert Text.IsDigit(hh[k]);
    }
  }

  lemma ParseIntOfAllDigits(hh: string)
    requires |hh| > 0 && Text.AllDigits(hh)
    ensures Text.ParseInt(hh) == Some(Text.DigitsValue(hh))
  {
    assert hh + "" == hh;
    Text.ParseIntOfDigits(hh, "");
  }

  /** The text before the first ':' of `d + rest`, when `d` has no ':' and
      `rest` starts with one, is `d`. */
  lemma BeforeSeparator(d: string, rest: string)
    requires ':' !in d
    requires |rest| > 0 && rest[0] == ':'
    ensures Text.Before(d + rest, ':') == d
  {
    var s := d + rest;
    assert forall k :: 0 <= k < |d| ==> s[k] == d[k];
    assert s[|d|] == ':';
    assert s[..|d|] == d;
  }

  /** The store's own filter is case-sensitive: a shop on "BASIC" or "PRO" is
      entitled to the owner's daily summary... */
  lemma EligibleHasSummaryFeature(shop: Shop)
    requires Eligible(shop)
    ensures Plans.GetPlanConfig(shop.subscriptionPlan).whatsappDailySummary
  {
    assert Text.ToUpper("BASIC") == "BASIC";
    assert Text.ToUpper("PRO") == "PRO";
  }

  /** ...but a shop whose plan is stored as "basic" has the feature in the
      plan registry and is still skipped by the job. */
  lemma LowerCasePlanIsSkipped()
    ensures
      var shop := Shop("s", "o", "Kadai", "retail", "basic", "active", None, true, "");
      !Eligible(shop) && Plans.GetPlanConfig(shop.subscriptionPlan).whatsappDailySummary
  {
    assert Text.ToUpper("basic") == "BASIC";
  }

  /** With non-negative amounts, today's credit never exceeds the pending total. */
  lemma TodayCreditWithinPending(shop: Shop, store: seq<Bill>, startOfDay: int)
    requires Ledger.NonNegative(store)
    ensures SummaryOf(shop, store, startOfDay).sales.credit <= SummaryOf(shop, store, startOfDay).totalPending
  {
    var mine := Ledger.OfShop(store, shop.id);
    forall i | 0 <= i < |mine| ensures mine[i].amount >= 0 {
      assert mine[i] in store;
    }
    Ledger.SinceModeBound(mine, startOfDay, CREDIT);
    Ledger.CreditOnlyTotal(mine);
  }

  /** When every bill is cash, UPI or credit, the three buckets add up to the sales. */
  lemma BucketsCoverSales(bills: seq<Bill>)
    requires forall i :: 0 <= i < |bills| ==> bills[i].mode in {CASH, UPI, CREDIT}
    ensures SplitOf(bills).totalSales == SplitOf(bills).cash + SplitOf(bills).upi + SplitOf(bills).credit
  {
    Ledger.BucketsPartitionTotal(bills);
    Ledger.OtherTotalZero(bills);
  }

  /** A day of 1000 cash, 500 UPI and 250 credit rupees, in paise. */
  lemma ThreeBillScenario()
    ensures
      var bills := [
        Bill("1", "s", "o", 100000, CASH, None, [], 10),
        Bill("2", "s", "o", 50000, UPI, None, [], 11),
        Bill("3", "s", "o", 25000, CREDIT, Some("9000000000"), [], 12)];
      SplitOf(bills) == Breakdown(175000, 100000, 50000, 25000)
  {
    var b1 := Bill("1", "s", "o", 100000, CASH, None, [], 10);
    var b2 := Bill("2", "s", "o", 50000, UPI, None, [], 11);
    var b3 := Bill("3", "s", "o", 25000, CREDIT, Some("9000000000"), [], 12);
    assert CASH != UPI && CASH != CREDIT && UPI != CREDIT by {
      assert CASH[0] != UPI[0] && CASH[1] != CREDIT[1] && UPI[0] != CREDIT[0];
    }
    assert [b1][..0] == [];
    assert [b1, b2][..1] == [b1];
    assert [b1, b2, b3][..2] == [b1, b2];
    assert Ledger.Total([b1]) == 100000;
    assert Ledger.ModeTotal([b1], CASH) == 100000;
    assert Ledger.ModeTotal([b1], UPI) == 0;
    assert Ledger.ModeTotal([b1], CREDIT) == 0;
    assert SplitOf([b1]) == Breakdown(100000, 100000, 0, 0);
    assert SplitOf([b1, b2]) == Breakdown(150000, 100000, 50000, 0);
  }
}

=== FILE: dashboard.dfy ===
/** The dashboard: where a visitor is sent, the three figures (today's sales,
    pending credit, low-stock count) and the category-dependent display. */
module Dashboard {

  import opened Optional
  import opened Records
  import Ledger
  import Credit
  import Stock
  import DailySummary

  datatype Landing =
    | ToLogin                   // no signed-in user
    | ToSetup                   // signed in but no shop yet
    | Show(view: View)

  /** What the loaded dashboard displays. `lowStockCard` is `None` when the
      card is hidden. */
  datatype View = View(
    shopName: string,
    category: string,
    salesLabel: string,
    todaySales: int,
    pendingCredit: int,
    lowStockCard: Option<nat>)

  const RETAIL: string := "retail"
  const SERVICE: string := "service"

  /** `shop.category || 'retail'`. */
  function CategoryOf(shop: Shop): (c: string)
    ensures c != ""
    ensures shop.category != "" ==> c == shop.category
  {
    if shop.category == "" then RETAIL else shop.category
  }

  /** The heading of the sales figure: only a service shop says "Revenue". */
  function SalesLabel(category: string): (r: string)
    ensures category == SERVICE ==> r == "Today's Revenue"
    ensures category != SERVICE ==> r == "Today's Sales"
  {
    if category == SERVICE then "Today's Revenue" else "Today's Sales"
  }

  /** `rows?.reduce(...) || 0`: the rows' total, or 0 when the query returned
      no data. */
  function SumRows(rows: Option<seq<Bill>>): int
  {
    match rows
    case None => 0
    case Some(bills) => Ledger.Total(bills)
  }

  /** The products of the shop whose stock is below 10, counted. */
  function LowStockCount(products: seq<Product>, shopId: string): (n: nat)
    ensures n <= |products|
  {
    if |products| == 0 then 0
    else
      var p := products[|products| - 1];
      LowStockCount(products[..|products| - 1], shopId) + (if p.shopId == shopId && p.stock < 10 then 1 else 0)
  }

  /** `fetchDashboardData`. `todaysBills` and `creditBills` are the bills
      table as each of the two bill queries sees it, `None` when that query
      returns no data; `products` is the products table as the count query sees
      it; `startOfDay` is local midnight. */
  function Load(
    user: Option<string>, shop: Option<Shop>,
    todaysBills: Option<seq<Bill>>, creditBills: Option<seq<Bill>>,
    products: Option<seq<Product>>, startOfDay: int): (l: Landing)
    ensures l == ToLogin <==> user.None?
    ensures l == ToSetup <==> user.Some? && shop.None?
    ensures l.Show? ==>
      var s := shop.value;
      && l.view.shopName == s.name
      && l.view.category == CategoryOf(s)
      && l.view.salesLabel == SalesLabel(CategoryOf(s))
      && (todaysBills.None? ==> l.view.todaySales == 0)
      && (todaysBills.Some? ==>
            l.view.todaySales == DailySummary.SummaryOf(s, todaysBills.value, startOfDay).sales.totalSales)
      && (creditBills.None? ==> l.view.pendingCredit == 0)
      && (creditBills.Some? ==>
            l.view.pendingCredit == Ledger.ModeTotal(Ledger.OfShop(creditBills.value, s.id), CREDIT))
      && (l.view.lowStockCard.Some? <==> CategoryOf(s) != SERVICE)
    ensures l.Show? && CategoryOf(shop.value) != SERVICE ==>
      l.view.lowStockCard == Some(if products.Some? then |Warned(products.value, ByShop(shop.value.id))| else 0)
  {
    match user
    case None => ToLogin
    case Some(_) =>
      match shop
      case None => ToSetup
      case Some(s) =>
        var category := CategoryOf(s);
        var todays := if todaysBills.Some? then Some(Ledger.Since(Ledger.OfShop(todaysBills.value, s.id), startOfDay)) else None;
        var credit := if creditBills.Some? then Some(Ledger.CreditOnly(Ledger.OfShop(creditBills.value, s.id))) else None;
        var low := if products.Some? then LowStockCount(products.value, s.id) else 0;
        LowStockMatchesWarnings(if products.Some? then products.value else [], s.id);
        Ledger.CreditOnlyTotal(Ledger.OfShop(if creditBills.Some? then creditBills.value else [], s.id));
        Show(View(s.name, category, SalesLabel(category), SumRows(todays), SumRows(credit),
                  if category != SERVICE then Some(low) else None))
  }

  /** A shop without a category is shown as a retail shop: "Today's Sales" and
      the low-stock card. Only service shops get "Today's Revenue". */
  lemma MissingCategoryIsRetail(user: string, s: Shop, todaysBills: Option<seq<Bill>>, creditBills: Option<seq<Bill>>, products: Option<seq<Product>>, startOfDay: int)
    requires s.category == ""
    ensures
      var v := Load(Some(user), Some(s), todaysBills, creditBills, products, startOfDay).view;
      v.category == RETAIL && v.salesLabel == "Today's Sales" && v.lowStockCard.Some?
  {
    assert RETAIL != SERVICE by { assert RETAIL[0] != SERVICE[0]; }
  }

  lemma ServiceShopView(user: string, s: Shop, todaysBills: Option<seq<Bill>>, creditBills: Option<seq<Bill>>, products: Option<seq<Product>>, startOfDay: int)
    requires s.category == SERVICE
    ensures
      var v := Load(Some(user), Some(s), todaysBills, creditBills, products, startOfDay).view;
      v.salesLabel == "Today's Revenue" && v.lowStockCard.None?
  {
  }

  /** The dashboard's figures are the daily summary's figures for the same day:
      today's sales equal the summary's total, pending credit its pending total. */
  lemma AgreesWithDailySummary(user: string, s: Shop, bills: seq<Bill>, products: Option<seq<Product>>, startOfDay: int)
    ensures
      var v := Load(Some(user), Some(s), Some(bills), Some(bills), products, startOfDay).view;
      var summary := DailySummary.SummaryOf(s, bills, startOfDay);
      v.todaySales == summary.sales.totalSales && v.pendingCredit == summary.totalPending
  {
  }

  /** Pending credit counts every credit bill of the shop, phone or not, and
      does not depend on whether today's query returned data. */
  lemma PendingCreditIsCreditModeTotal(user: string, s: Shop, todaysBills: Option<seq<Bill>>, bills: seq<Bill>, products: Option<seq<Product>>, startOfDay: int)
    ensures
      Load(Some(user), Some(s), todaysBills, Some(bills), products, startOfDay).view.pendingCredit
        == Ledger.ModeTotal(Ledger.OfShop(bills, s.id), CREDIT)
  {
    Ledger.CreditOnlyTotal(Ledger.OfShop(bills, s.id));
  }

  /** The credit page's pending total only counts credit bills with a phone, so
      with non-negative amounts it never exceeds the dashboard's pending credit,
      and the two agree when every credit bill has a phone. */
  lemma CreditPageWithinDashboard(user: string, s: Shop, bills: seq<Bill>, products: Option<seq<Product>>, startOfDay: int)
    requires Ledger.NonNegative(bills)
    ensures
      var rows := Credit.CreditQuery(bills, s.id);
      var dash := Load(Some(user), Some(s), Some(bills), Some(bills), products, startOfDay).view.pendingCredit;
      && Credit.View(Some(rows)).totalPending <= dash
      && ((forall i :: 0 <= i < |rows| ==> HasPhone(rows[i])) ==> Credit.View(Some(rows)).totalPending == dash)
  {
    var rows := Credit.CreditQuery(bills, s.id);
    forall i | 0 <= i < |rows| ensures rows[i].amount >= 0 {
      assert rows[i] in Ledger.OfShop(bills, s.id);
      assert rows[i] in bills;
    }
    PhoneTotalBound(rows);
  }

  /** Leaving out the bills without a phone can only lower a non-negative sum,
      and changes nothing when every bill has a phone. */
  lemma {:induction false} PhoneTotalBound(bills: seq<Bill>)
    requires Ledger.NonNegative(bills)
    ensures Credit.PhoneTotal(bills) <= Ledger.Total(bills)
    ensures (forall i :: 0 <= i < |bills| ==> HasPhone(bills[i])) ==> Credit.PhoneTotal(bills) == Ledger.Total(bills)
    decreases |bills|
  {
    if |bills| > 0 {
      PhoneTotalBound(bills[..|bills| - 1]);
    }
  }

  /** Whose products a list shows: the dashboard's count query selects by
      shop id, the stock page by owner id. */
  datatype Scope = ByShop(shopId: string) | ByOwner(ownerId: string)

  predicate InScope(p: Product, scope: Scope)
  {
    match scope
    case ByShop(id) => p.shopId == id
    case ByOwner(id) => p.ownerId == id
  }

  /** The products in scope that carry the stock page's warning icon. */
  function Warned(products: seq<Product>, scope: Scope): (r: seq<Product>)
    ensures forall p :: p in r <==> p in products && InScope(p, scope) && Stock.ShowsWarning(p.stock)
  {
    if |products| == 0 then []
    else
      var p := products[|products| - 1];
      Warned(products[..|products| - 1], scope) + (if InScope(p, scope) && Stock.ShowsWarning(p.stock) then [p] else [])
  }

  /** The low-stock card counts exactly the products with the shop's id whose
      stock is below 10: out of stock, low, and negative alike. */
  lemma {:induction false} LowStockMatchesWarnings(products: seq<Product>, shopId: string)
    ensures LowStockCount(products, shopId) == |Warned(products, ByShop(shopId))|
    decreases |products|
  {
    if |products| > 0 {
      LowStockMatchesWarnings(products[..|products| - 1], shopId);
    }
  }

  /** When a product belongs to the owner exactly when it carries the shop's
      id, as for every row the billing and stock pages write, the dashboard's
      low-stock products are the stock page's flagged products, in order. */
  lemma {:induction false} WarnedByOwner(products: seq<Product>, shopId: string, ownerId: string)
    requires forall p :: p in products ==> (p.ownerId == ownerId <==> p.shopId == shopId)
    ensures Warned(products, ByShop(shopId)) == Warned(products, ByOwner(ownerId))
    ensures LowStockCount(products, shopId) == |Warned(products, ByOwner(ownerId))|
    decreases |products|
  {
    if |products| > 0 {
      var init := products[..|products| - 1];
      assert forall p :: p in init ==> p in products;
      WarnedByOwner(init, shopId, ownerId);
      assert products[|products| - 1] in products;
    }
    LowStockMatchesWarnings(products, shopId);
  }

  /** Every warned product's badge is out-of-stock or low-stock. */
  lemma WarnedBadges(products: seq<Product>, scope: Scope)
    ensures forall p :: p in Warned(products, scope) ==> Stock.BadgeOf(p.stock) != Stock.InStock
  {
  }

  /** No bills today: no sales. */
  lemma NoBillsNoSales(user: string, s: Shop, bills: seq<Bill>, products: Option<seq<Product>>, startOfDay: int)
    requires forall i :: 0 <= i < |bills| ==> bills[i].createdAt < startOfDay
    ensures Load(Some(user), Some(s), Some(bills), Some(bills), products, startOfDay).view.todaySales == 0
  {
    var today := Ledger.Since(Ledger.OfShop(bills, s.id), startOfDay);
    assert forall b :: b in today ==> b in bills;
  }
}

=== FILE: ledger.dfy ===
/** Sums over bill rows and the row filters the queries apply. The dashboard
    and the daily summary both reduce bills this way; here the reduction is
    defined once. Every sum folds from the first row to the last, as `reduce`
    and `forEach` do. */
module Ledger {

  import opened Records

  /** `bills.reduce((sum, b) => sum + Number(b.total_amount), 0)`. */
  function Total(bills: seq<Bill>): int
  {
    if |bills| == 0 then 0 else Total(bills[..|bills| - 1]) + bills[|bills| - 1].amount
  }

  /** The amounts of the bills whose stored mode is exactly `mode`. */
  function ModeTotal(bills: seq<Bill>, mode: string): int
  {
    if |bills| == 0 then 0
    else
      var b := bills[|bills| - 1];
      ModeTotal(bills[..|bills| - 1], mode) + (if b.mode == mode then b.amount else 0)
  }

  /** The amounts of the bills whose mode is none of cash, upi and credit. */
  function OtherTotal(bills: seq<Bill>): int
  {
    if |bills| == 0 then 0
    else
      var b := bills[|bills| - 1];
      OtherTotal(bills[..|bills| - 1]) + (if b.mode in {CASH, UPI, CREDIT} then 0 else b.amount)
  }

  /** `.gte('created_at', since)`. */
  function Since(bills: seq<Bill>, since: int): (r: seq<Bill>)
    ensures forall b :: b in r <==> b in bills && b.createdAt >= since
  {
    if |bills| == 0 then []
    else
      var b := bills[|bills| - 1];
      Since(bills[..|bills| - 1], since) + (if b.createdAt >= since then [b] else [])
  }

  /** `.eq('shop_id', shopId)`. */
  function OfShop(bills: seq<Bill>, shopId: string): (r: seq<Bill>)
    ensures forall b :: b in r <==> b in bills && b.shopId == shopId
  {
    if |bills| == 0 then []
    else
      var b := bills[|bills| - 1];
      OfShop(bills[..|bills| - 1], shopId) + (if b.shopId == shopId then [b] else [])
  }

  /** `.eq('payment_mode', 'credit')`. */
  function CreditOnly(bills: seq<Bill>): (r: seq<Bill>)
    ensures forall b :: b in r <==> b in bills && IsCredit(b)
  {
    if |bills| == 0 then []
    else
      var b := bills[|bills| - 1];
      CreditOnly(bills[..|bills| - 1]) + (if IsCredit(b) then [b] else [])
  }

  predicate NonNegative(bills: seq<Bill>)
  {
    forall i :: 0 <= i < |bills| ==> bills[i].amount >= 0
  }

  lemma {:induction false} TotalAppend(a: seq<Bill>, b: seq<Bill>)
    ensures Total(a + b) == Total(a) + Total(b)
    decreases |b|
  {
    if |b| == 0 {
      assert a + b == a;
    } else {
      assert (a + b)[..|a + b| - 1] == a + b[..|b| - 1];
      TotalAppend(a, b[..|b| - 1]);
    }
  }

  /** Every bill's amount lands in exactly one of the four buckets. */
  lemma {:induction false} BucketsPartitionTotal(bills: seq<Bill>)
    ensures Total(bills) == ModeTotal(bills, CASH) + ModeTotal(bills, UPI) + ModeTotal(bills, CREDIT) + OtherTotal(bills)
    decreases |bills|
  {
    if |bills| > 0 {
      BucketsPartitionTotal(bills[..|bills| - 1]);
    }
  }

  /** No bill with another mode: no other total. */
  lemma {:induction false} OtherTotalZero(bills: seq<Bill>)
    requires forall i :: 0 <= i < |bills| ==> bills[i].mode in {CASH, UPI, CREDIT}
    ensures OtherTotal(bills) == 0
    decreases |bills|
  {
    if |bills| > 0 {
      OtherTotalZero(bills[..|bills| - 1]);
    }
  }

  /** The credit query's rows sum to the credit-mode total of all rows. */
  lemma {:induction false} CreditOnlyTotal(bills: seq<Bill>)
    ensures Total(CreditOnly(bills)) == ModeTotal(bills, CREDIT)
    decreases |bills|
  {
    if |bills| > 0 {
      var init := bills[..|bills| - 1];
      var b := bills[|bills| - 1];
      CreditOnlyTotal(init);
      TotalAppend(CreditOnly(init), if IsCredit(b) then [b] else []);
    }
  }

  /** With non-negative amounts, the bills since a moment contribute no more to
      a mode than all the bills do. */
  lemma {:induction false} SinceModeBound(bills: seq<Bill>, since: int, mode: string)
    requires NonNegative(bills)
    ensures ModeTotal(Since(bills, since), mode) <= ModeTotal(bills, mode)
    decreases |bills|
  {
    if |bills| > 0 {
      var init := bills[..|bills| - 1];
      var b := bills[|bills| - 1];
      SinceModeBound(init, since, mode);
      ModeTotalAppend(Since(init, since), if b.createdAt >= since then [b] else [], mode);
    }
  }

  lemma {:induction false} ModeTotalAppend(a: seq<Bill>, b: seq<Bill>, mode: string)
    ensures ModeTotal(a + b, mode) == ModeTotal(a, mode) + ModeTotal(b, mode)
    decreases |b|
  {
    if |b| == 0 {
      assert a + b == a;
    } else {
      assert (a + b)[..|a + b| - 1] == a + b[..|b| - 1];
      ModeTotalAppend(a, b[..|b| - 1], mode);
    }
  }
}

=== FILE: option.dfy ===
/** An optional value: JavaScript's `null`, `undefined` or NaN is `None`. */
module Optional {

  datatype Option<+T> = None | Some(value: T) {

    /** The value, or `default` when there is none (JavaScript's `x || default` on a value that is absent). */
    function GetOr(default: T): (r: T)
      ensures Some? ==> r == value
      ensures None? ==> r == default
    {
      match this
      case Some(v) => v
      case None => default
    }
  }
}

=== FILE: payment.dfy ===
/** `POST /api/payment/verify`: check the Razorpay signature over
    "order_id|payment_id" and move the shop to its new subscription. The HMAC
    and the calendar are parameters: `hmac(secret, message)` is the hex digest
    of HMAC-SHA256, `addMonth(now)` the same moment one month later. */
module Payment {

  import opened Optional
  import opened Records
  import DailySummary
  import Plans
  import Text

  /** The JSON body. A field the client left out is `None`. */
  datatype Request = Request(
    orderId: Option<string>,
    paymentId: Option<string>,
    signature: Option<string>,
    shopId: Option<string>,
    planId: Option<string>)

  datatype Reply =
    | Ok(mock: bool)                             // { success: true } or { success: true, mock: true }
    | Fail(status: nat, message: string)         // { error: message } with the status

  /** The reply and the shops table after the request. */
  datatype Result = Result(reply: Reply, shops: seq<Shop>)

  const BAD_SIGNATURE: string := "Invalid Payment Signature"
  const UPDATE_FAILED: string := "Payment verified but subscription update failed."
  const INTERNAL_ERROR: string := "Internal Server Error"
  const ACTIVE: string := "active"

  /** How a JavaScript string concatenation renders a field: an absent one
      reads "undefined". */
  function Render(v: Option<string>): string
  {
    match v
    case Some(s) => s
    case None => "undefined"
  }

  /** The message the signature covers. */
  function SignedMessage(orderId: string, paymentId: string): (m: string)
    ensures |m| == |orderId| + 1 + |paymentId|
    ensures m[..|orderId|] == orderId && m[|orderId|] == '|' && m[|orderId| + 1..] == paymentId
  {
    orderId + "|" + paymentId
  }

  /** Order ids carry no '|', so the message determines the pair it was built from. */
  lemma SignedMessageInjective(o1: string, p1: string, o2: string, p2: string)
    requires '|' !in o1 && '|' !in o2
    requires SignedMessage(o1, p1) == SignedMessage(o2, p2)
    ensures o1 == o2 && p1 == p2
  {
    var m := SignedMessage(o1, p1);
    assert forall k :: 0 <= k < |o1| ==> m[k] == o1[k];
    assert forall k :: 0 <= k < |o2| ==> m[k] == o2[k];
  }

  /** The columns the update writes. `plan` is `plan_id` as sent; an absent
      `plan_id` is dropped from the update and leaves the column alone. */
  datatype Patch = Patch(plan: Option<string>, expiry: int)

  /** One shop row after the update. */
  function Patched(s: Shop, p: Patch): (r: Shop)
    ensures r.subscriptionPlan == (if p.plan.Some? then p.plan.value else s.subscriptionPlan)
    ensures r.subscriptionStatus == ACTIVE
    ensures r.subscriptionExpiry == Some(p.expiry)
    ensures r.dailySummaryEnabled
    ensures r.(subscriptionPlan := s.subscriptionPlan, subscriptionStatus := s.subscriptionStatus,
               subscriptionExpiry := s.subscriptionExpiry, dailySummaryEnabled := s.dailySummaryEnabled) == s
  {
    s.(subscriptionPlan := p.plan.GetOr(s.subscriptionPlan),
       subscriptionStatus := ACTIVE,
       subscriptionExpiry := Some(p.expiry),
       dailySummaryEnabled := true)
  }

  /** `.update(patch).eq('id', shopId)`: every row whose id is `shopId`. */
  function ApplyPatch(shops: seq<Shop>, shopId: string, p: Patch): (r: seq<Shop>)
    ensures |r| == |shops|
    ensures forall i :: 0 <= i < |shops| ==> r[i] == (if shops[i].id == shopId then Patched(shops[i], p) else shops[i])
  {
    seq(|shops|, i requires 0 <= i < |shops| => if shops[i].id == shopId then Patched(shops[i], p) else shops[i])
  }

  /** The patch overwrites; a second application changes nothing. */
  lemma PatchIsIdempotent(shops: seq<Shop>, shopId: string, p: Patch)
    ensures ApplyPatch(ApplyPatch(shops, shopId, p), shopId, p) == ApplyPatch(shops, shopId, p)
  {
    var once := ApplyPatch(shops, shopId, p);
    assert forall i :: 0 <= i < |shops| ==> once[i].id == shops[i].id;
  }

  /** The handler. `request` is `None` when the body is not JSON; `serviceKey`
      says whether SUPABASE_SERVICE_ROLE_KEY is set; `keySecret` is
      RAZORPAY_KEY_SECRET; `storeFails` whether the update reports an error. */
  function Verify(
    request: Option<Request>, serviceKey: bool, keySecret: Option<string>,
    hmac: (string, string) -> string, addMonth: int -> int, now: int,
    storeFails: bool, shops: seq<Shop>): (r: Result)
    ensures request.None? ==> r == Result(Fail(500, INTERNAL_ERROR), shops)
    ensures request.Some? && !serviceKey ==> r == Result(Ok(true), shops)
    ensures request.Some? && serviceKey && keySecret.None? ==> r == Result(Fail(500, INTERNAL_ERROR), shops)
    ensures r.reply != Ok(false) ==> r.shops == shops
    ensures r.reply == Ok(false) <==>
      && request.Some? && serviceKey && keySecret.Some? && !storeFails
      && request.value.signature == Some(hmac(keySecret.value, SignedMessage(Render(request.value.orderId), Render(request.value.paymentId))))
    ensures r.reply == Ok(false) ==>
      r.shops == ApplyPatch(shops, Render(request.value.shopId), Patch(request.value.planId, addMonth(now)))
    ensures r.reply == Fail(400, BAD_SIGNATURE) <==>
      && request.Some? && serviceKey && keySecret.Some?
      && request.value.signature != Some(hmac(keySecret.value, SignedMessage(Render(request.value.orderId), Render(request.value.paymentId))))
  {
    match request
    case None => Result(Fail(500, INTERNAL_ERROR), shops)
    case Some(req) =>
      if !serviceKey then Result(Ok(true), shops)
      else match keySecret
        case None => Result(Fail(500, INTERNAL_ERROR), shops)
        case Some(secret) =>
          var expected := hmac(secret, SignedMessage(Render(req.orderId), Render(req.paymentId)));
          if req.signature != Some(expected) then Result(Fail(400, BAD_SIGNATURE), shops)
          else if storeFails then Result(Fail(500, UPDATE_FAILED), shops)
          else Result(Ok(false), ApplyPatch(shops, Render(req.shopId), Patch(req.planId, addMonth(now))))
  }

  /** The failed-update reply can be told apart from the signature reply:
      different status, different message. */
  lemma StoreFailureIsDistinct(
    req: Request, secret: string, hmac: (string, string) -> string, addMonth: int -> int, now: int, shops: seq<Shop>)
    requires req.signature == Some(hmac(secret, SignedMessage(Render(req.orderId), Render(req.paymentId))))
    ensures Verify(Some(req), true, Some(secret), hmac, addMonth, now, true, shops) == Result(Fail(500, UPDATE_FAILED), shops)
    ensures UPDATE_FAILED != BAD_SIGNATURE
  {
    assert |UPDATE_FAILED| != |BAD_SIGNATURE|;
  }

  /** A paid shop after a verified BASIC or PRO payment is picked up by the
      daily summary job. */
  lemma VerifiedShopGetsSummary(
    req: Request, secret: string, hmac: (string, string) -> string, addMonth: int -> int, now: int,
    shops: seq<Shop>, i: nat)
    requires req.planId == Some("BASIC") || req.planId == Some("PRO")
    requires req.signature == Some(hmac(secret, SignedMessage(Render(req.orderId), Render(req.paymentId))))
    requires i < |shops| && req.shopId == Some(shops[i].id)
    ensures
      var after := Verify(Some(req), true, Some(secret), hmac, addMonth, now, false, shops).shops;
      && DailySummary.Eligible(after[i])
      && after[i].subscriptionExpiry == Some(addMonth(now))
  {
  }

  /** Replaying a verified request at the same moment leaves the table as the
      first one did. */
  lemma ReplayChangesNothing(
    req: Request, secret: string, hmac: (string, string) -> string, addMonth: int -> int, now: int, shops: seq<Shop>)
    requires req.signature == Some(hmac(secret, SignedMessage(Render(req.orderId), Render(req.paymentId))))
    ensures
      var once := Verify(Some(req), true, Some(secret), hmac, addMonth, now, false, shops).shops;
      Verify(Some(req), true, Some(secret), hmac, addMonth, now, false, once).shops == once
  {
    PatchIsIdempotent(shops, Render(req.shopId), Patch(req.planId, addMonth(now)));
  }

  /** `plan_id` is stored as sent: a verified payment naming an unknown plan
      stores that name, and the plan registry reads it as FREE while the daily
      summary is switched on. */
  lemma UnknownPlanIsStored(
    req: Request, secret: string, hmac: (string, string) -> string, addMonth: int -> int, now: int,
    shops: seq<Shop>, i: nat)
    requires req.planId == Some("GOLD")
    requires req.signature == Some(hmac(secret, SignedMessage(Render(req.orderId), Render(req.paymentId))))
    requires i < |shops| && req.shopId == Some(shops[i].id)
    ensures
      var after := Verify(Some(req), true, Some(secret), hmac, addMonth, now, false, shops).shops;
      && after[i].subscriptionPlan == "GOLD"
      && after[i].subscriptionStatus == ACTIVE
      && after[i].dailySummaryEnabled
      && Plans.GetPlanConfig(after[i].subscriptionPlan).plan == Plans.FREE
  {
    assert Text.ToUpper("GOLD") == "GOLD";
    assert forall p :: Plans.Key(p) != "GOLD";
  }
}

=== FILE: plans.dfy ===
/** The plan registry: the `PLANS` table of entitlements and the total,
    case-insensitive lookup `getPlanConfig`. */
module Plans {

  import opened Optional
  import Text

  datatype PlanType = FREE | BASIC | PRO

  /** `billing_limit`: a number of bills, or 'UNLIMITED'. */
  datatype BillingLimit = Limited(bills: nat) | Unlimited

  datatype PlanConfig = PlanConfig(
    plan: PlanType,
    price: nat,
    billingLimit: BillingLimit,
    stockEnabled: bool,
    pendingTracking: bool,
    whatsappCustomerBill: bool,
    whatsappDailySummary: bool,
    reportsEnabled: bool,
    advancedReports: bool,
    exportEnabled: bool,
    prioritySupport: bool,
    languageSupport: seq<string>)

  /** The table key of each plan. */
  function Key(p: PlanType): string
  {
    match p
    case FREE => "FREE"
    case BASIC => "BASIC"
    case PRO => "PRO"
  }

  /** Position of a plan in the upgrade order FREE < BASIC < PRO. */
  function Rank(p: PlanType): nat
  {
    match p
    case FREE => 0
    case BASIC => 1
    case PRO => 2
  }

  /** The `PLANS` table. */
  function Config(p: PlanType): (c: PlanConfig)
    ensures c.plan == p
    ensures c.pendingTracking
    ensures c.billingLimit.Limited? <==> p == FREE
    ensures p == FREE ==> c.billingLimit == Limited(20)
    ensures c.stockEnabled <==> p != FREE
    ensures c.advancedReports <==> p == PRO
    ensures c.prioritySupport <==> p == PRO
    ensures "EN" in c.languageSupport
  {
    match p
    case FREE =>
      PlanConfig(FREE, 0, Limited(20), false, true, false, false, false, false, false, false, ["EN"])
    case BASIC =>
      PlanConfig(BASIC, 299, Unlimited, true, true, true, true, true, false, true, false, ["EN", "TA", "HI"])
    case PRO =>
      PlanConfig(PRO, 499, Unlimited, true, true, true, true, true, true, true, true, ["EN", "TA", "HI"])
  }

  /** `PLANS[key]`: defined only for the three exact keys. */
  function Lookup(key: string): (r: Option<PlanType>)
    ensures r.Some? ==> Key(r.value) == key
    ensures r.None? ==> forall p :: Key(p) != key
  {
    if key == "FREE" then Some(FREE)
    else if key == "BASIC" then Some(BASIC)
    else if key == "PRO" then Some(PRO)
    else None
  }

  /** `getPlanConfig`: an empty name reads as "FREE", the name is upper-cased,
      and a key missing from the table falls back to FREE. */
  function GetPlanConfig(name: string): (c: PlanConfig)
    ensures c == Config(c.plan)
    ensures forall p :: Text.ToUpper(name) == Key(p) ==> c.plan == p
    ensures (forall p :: Text.ToUpper(name) != Key(p)) ==> c.plan == FREE
  {
    var key := if name == "" then "FREE" else Text.ToUpper(name);
    Config(Lookup(key).GetOr(FREE))
  }

  /** Names that agree after upper-casing resolve to the same entitlements:
      "basic", "Basic" and "BASIC" are one plan. */
  lemma LookupIgnoresCase(s: string, t: string)
    requires Text.ToUpper(s) == Text.ToUpper(t)
    ensures GetPlanConfig(s) == GetPlanConfig(t)
  {
  }

  /** `getPlanConfig(s) == getPlanConfig(s.toUpperCase())`. */
  lemma LookupOfUpper(s: string)
    ensures GetPlanConfig(Text.ToUpper(s)) == GetPlanConfig(s)
  {
    Text.ToUpperIdempotent(s);
    LookupIgnoresCase(Text.ToUpper(s), s);
  }

  /** The empty name, an unknown name and "free" all give the FREE entitlements. */
  lemma UnknownIsFree()
    ensures GetPlanConfig("") == Config(FREE)
    ensures GetPlanConfig("unknown") == Config(FREE)
    ensures GetPlanConfig("free") == Config(FREE)
    ensures GetPlanConfig("basic") == GetPlanConfig("BASIC") == Config(BASIC)
  {
    assert Text.ToUpper("unknown") == "UNKNOWN";
    assert Text.ToUpper("free") == "FREE";
    assert Text.ToUpper("basic") == "BASIC";
    assert Text.ToUpper("BASIC") == "BASIC";
  }

  /** Every feature of `lo` is also a feature of `hi`, and `hi` offers at
      least the languages of `lo`. */
  predicate Includes(lo: PlanConfig, hi: PlanConfig)
  {
    && (lo.stockEnabled ==> hi.stockEnabled)
    && (lo.pendingTracking ==> hi.pendingTracking)
    && (lo.whatsappCustomerBill ==> hi.whatsappCustomerBill)
    && (lo.whatsappDailySummary ==> hi.whatsappDailySummary)
    && (lo.reportsEnabled ==> hi.reportsEnabled)
    && (lo.advancedReports ==> hi.advancedReports)
    && (lo.exportEnabled ==> hi.exportEnabled)
    && (lo.prioritySupport ==> hi.prioritySupport)
    && (forall l :: l in lo.languageSupport ==> l in hi.languageSupport)
  }

  /** Upgrading never takes an entitlement away, and costs strictly more. */
  lemma UpgradeIsMonotone(p: PlanType, q: PlanType)
    requires Rank(p) <= Rank(q)
    ensures Includes(Config(p), Config(q))
    ensures Rank(p) < Rank(q) ==> Config(p).price < Config(q).price
  {
  }
}

=== FILE: records.dfy ===
/** The store's records as the pages read them. Money is in paise, timestamps
    are integers, and the empty string stands for a column that is null. */
module Records {

  import opened Optional

  /** One cart entry, and one entry of a bill's `items`: product id to quantity. */
  datatype Line = Line(productId: string, qty: int)

  /** The three payment modes the billing page offers. */
  datatype PaymentMode = Cash | Upi | Credit {
    /** The text stored in the bill's `payment_mode` column. */
    function Label(): string
    {
      match this
      case Cash => CASH
      case Upi => UPI
      case Credit => CREDIT
    }
  }

  const CASH: string := "cash"
  const UPI: string := "upi"
  const CREDIT: string := "credit"

  /** A row of `bills`. `mode` is the stored text, which the daily summary
      compares against the three labels. */
  datatype Bill = Bill(
    id: string,
    shopId: string,
    ownerId: string,
    amount: int,
    mode: string,
    phone: Option<string>,
    items: seq<Line>,
    createdAt: int)

  /** A row of `products`. */
  datatype Product = Product(
    id: string,
    shopId: string,
    ownerId: string,
    name: string,
    price: int,
    stock: int)

  /** A row of `shops`. `category`, `subscriptionPlan` and `dailySummaryTime`
      are "" when the column is null. */
  datatype Shop = Shop(
    id: string,
    ownerId: string,
    name: string,
    category: string,
    subscriptionPlan: string,
    subscriptionStatus: string,
    subscriptionExpiry: Option<int>,
    dailySummaryEnabled: bool,
    dailySummaryTime: string)

  /** The bill carries a customer phone that JavaScript treats as present:
      not null and not the empty string. */
  predicate HasPhone(b: Bill)
  {
    b.phone.Some? && b.phone.value != ""
  }

  predicate IsCredit(b: Bill)
  {
    b.mode == CREDIT
  }
}

=== FILE: stock.dfy ===
/** The stock page: the plan gate, the stock badge and warning icon, the search
    filter, and the payload `handleSave` writes (update when editing, insert
    otherwise). */
module Stock {

  import opened Optional
  import opened Records
  import Text
  import Plans
  import Catalog

  /** What the page shows once `init` has run. */
  datatype Gate =
    | ToLogin      // no signed-in user
    | Loading      // signed in, but no shop row: the page never leaves its loading state
    | Locked       // "Stock Management Locked"
    | Unlocked     // the product list

  /** `init` and the locked-page condition. `shopPlan` is the shop's
      `subscription_plan`, or `None` when no shop row comes back. */
  function PageGate(signedIn: bool, shopPlan: Option<string>): (g: Gate)
    ensures g == ToLogin <==> !signedIn
    ensures g == Loading <==> signedIn && shopPlan.None?
    ensures g == Unlocked <==> signedIn && shopPlan.Some? && Plans.GetPlanConfig(shopPlan.value).stockEnabled
  {
    if !signedIn then ToLogin
    else match shopPlan
      case None => Loading
      case Some(plan) => if Plans.GetPlanConfig(plan).stockEnabled then Unlocked else Locked
  }

  /** The page unlocks exactly for the paid plans, whatever their case; FREE,
      empty and unknown plan names stay locked. */
  lemma UnlockedIffPaidPlan(plan: string)
    ensures PageGate(true, Some(plan)) == Unlocked <==> Text.ToUpper(plan) in {"BASIC", "PRO"}
  {
    var c := Plans.GetPlanConfig(plan);
    if Text.ToUpper(plan) == "BASIC" {
      assert Plans.Key(Plans.BASIC) == "BASIC";
    } else if Text.ToUpper(plan) == "PRO" {
      assert Plans.Key(Plans.PRO) == "PRO";
    } else if Text.ToUpper(plan) == "FREE" {
      assert Plans.Key(Plans.FREE) == "FREE";
    } else {
      forall p ensures Text.ToUpper(plan) != Plans.Key(p) {
        match p
        case FREE =>
        case BASIC =>
        case PRO =>
      }
    }
  }

  lemma FreeAndUnknownAreLocked()
    ensures PageGate(true, Some("FREE")) == Locked
    ensures PageGate(true, Some("")) == Locked
    ensures PageGate(true, Some("gold")) == Locked
    ensures PageGate(true, Some("basic")) == Unlocked
  {
    UnlockedIffPaidPlan("FREE");
    UnlockedIffPaidPlan("");
    UnlockedIffPaidPlan("gold");
    UnlockedIffPaidPlan("basic");
    assert Text.ToUpper("FREE") == "FREE";
    assert Text.ToUpper("gold") == "GOLD";
    assert Text.ToUpper("basic") == "BASIC";
  }

  datatype Badge = OutOfStock | LowStock | InStock

  /** The badge class: below 10 is out when exactly 0 and low otherwise
      (negative stock included); 10 and more is in stock. */
  function BadgeOf(stock: int): (b: Badge)
    ensures b == OutOfStock <==> stock == 0
    ensures b == LowStock <==> stock < 10 && stock != 0
    ensures b == InStock <==> stock >= 10
  {
    if stock < 10 then (if stock == 0 then OutOfStock else LowStock) else InStock
  }

  /** The warning icon next to the badge. */
  predicate ShowsWarning(stock: int)
  {
    stock < 10
  }

  /** The icon accompanies exactly the out-of-stock and low-stock badges. */
  lemma WarningMatchesBadge(stock: int)
    ensures ShowsWarning(stock) <==> BadgeOf(stock) != InStock
  {
  }

  /** The list the page shows for a search term. */
  function Listed(ps: seq<Product>, search: string): (r: seq<Product>)
    ensures forall p :: p in r <==> p in ps && Catalog.Matches(p.name, search)
  {
    Catalog.Search(ps, search)
  }

  /** An empty search shows every product. */
  lemma ListedEmptySearch(ps: seq<Product>)
    ensures Listed(ps, "") == ps
  {
    Catalog.SearchEmpty(ps);
  }

  /** The form fields of the add/edit modal, as text, and the price already read. */
  datatype Form = Form(name: string, price: int, stock: string)

  /** `handleSave`'s payload. The stock text goes through `parseInt(stock) || 0`. */
  function Payload(f: Form, shopId: string, ownerId: string, id: string): (p: Product)
    ensures p.id == id && p.name == f.name && p.price == f.price
    ensures p.shopId == shopId && p.ownerId == ownerId
    ensures Text.ParseInt(f.stock).None? ==> p.stock == 0
    ensures Text.ParseInt(f.stock).Some? ==> p.stock == Text.ParseInt(f.stock).value
  {
    Product(id, shopId, ownerId, f.name, f.price, Text.ParseInt(f.stock).GetOr(0))
  }

  /** A stock field that does not start with a digit or a sign is saved as 0. */
  lemma UnparseableStockIsZero(f: Form, shopId: string, ownerId: string, id: string)
    requires |f.stock| == 0 || (!Text.IsDigit(f.stock[0]) && f.stock[0] != '-' && f.stock[0] != '+')
    ensures Payload(f, shopId, ownerId, id).stock == 0
  {
    Text.ParseIntNoDigits(f.stock);
  }

  /** A stock field of digits is saved as their value. */
  lemma DigitStockIsSaved(f: Form, shopId: string, ownerId: string, id: string)
    requires |f.stock| > 0 && Text.AllDigits(f.stock)
    ensures Payload(f, shopId, ownerId, id).stock == Text.DigitsValue(f.stock)
  {
    assert f.stock + "" == f.stock;
    Text.ParseIntOfDigits(f.stock, "");
  }

  /** Whether the modal is editing an existing product (`editingProduct`) or adding one. */
  datatype Editing = Editing(productId: string) | Adding

  /** `handleSave` against the products table. `ownerId` is the signed-in
      user and `shopId` the shop row the lookup returns, `None` when there is
      no user or no row: the handler then returns before writing. `newId` is
      the id the store assigns to an inserted row. */
  function Save(ps: seq<Product>, mode: Editing, f: Form, shopId: Option<string>, ownerId: Option<string>, newId: string): (r: seq<Product>)
    ensures ownerId.None? || shopId.None? ==> r == ps
    ensures ownerId.Some? && shopId.Some? && mode.Adding? ==>
      r == ps + [Payload(f, shopId.value, ownerId.value, newId)]
    ensures ownerId.Some? && shopId.Some? && mode.Editing? ==> |r| == |ps|
    ensures ownerId.Some? && shopId.Some? && mode.Editing? ==> forall i :: 0 <= i < |ps| ==>
      r[i] == (if ps[i].id == mode.productId then Payload(f, shopId.value, ownerId.value, ps[i].id) else ps[i])
  {
    if ownerId.None? || shopId.None? then ps
    else
      var shop, owner := shopId.value, ownerId.value;
      match mode
      case Adding => ps + [Payload(f, shop, owner, newId)]
      case Editing(id) =>
        seq(|ps|, i requires 0 <= i < |ps| => if ps[i].id == id then Payload(f, shop, owner, id) else ps[i])
  }

  /** Saving the same edit twice is the same as saving it once. */
  lemma EditIsIdempotent(ps: seq<Product>, id: string, f: Form, shopId: string, ownerId: string, newId: string)
    ensures
      var once := Save(ps, Editing(id), f, Some(shopId), Some(ownerId), newId);
      Save(once, Editing(id), f, Some(shopId), Some(ownerId), newId) == once
  {
    var once := Save(ps, Editing(id), f, Some(shopId), Some(ownerId), newId);
    var twice := Save(once, Editing(id), f, Some(shopId), Some(ownerId), newId);
    assert forall i :: 0 <= i < |ps| ==> once[i].id == ps[i].id;
    assert forall i :: 0 <= i < |ps| ==> twice[i] == once[i];
  }

  /** Editing a product that is in the table leaves it findable under its id,
      now with the form's contents. */
  lemma EditIsFound(ps: seq<Product>, i: nat, f: Form, shopId: string, ownerId: string, newId: string)
    requires i < |ps| && Catalog.DistinctIds(ps)
    ensures
      var r := Save(ps, Editing(ps[i].id), f, Some(shopId), Some(ownerId), newId);
      Catalog.FindProduct(r, ps[i].id) == Some(Payload(f, shopId, ownerId, ps[i].id))
  {
    var r := Save(ps, Editing(ps[i].id), f, Some(shopId), Some(ownerId), newId);
    assert forall j :: 0 <= j < |ps| ==> r[j].id == ps[j].id;
    Catalog.FindListed(r, i);
  }
}

=== FILE: summary_job.dfy ===
/** The handler of `GET /api/cron/daily-summary`: simulation mode without the
    service key, the shops query, and the loop that summarizes every eligible
    shop whose hour has come. */
module SummaryJob {

  import opened Optional
  import opened Records
  import Ledger
  import DailySummary

  datatype JobResponse =
    | Simulated(processed: nat)                          // no service key: mock data, no store access
    | DatabaseError                                      // the shops query failed (status 500)
    | NoEligibleShops                                    // "No eligible shops found for summary."
    | Completed(processed: nat, details: seq<DailySummary.Summary>)

  /** The mock shops of simulation mode. */
  const MOCK_SHOPS: seq<string> := ["Palani's Shop (Simulated)", "Demo Store (Simulated)"]

  /** The job. `shopRows` is the shops table, `None` when the query fails;
      `store` is the bills table. */
  method RunJob(
    serviceKey: bool, shopRows: Option<seq<Shop>>, store: seq<Bill>,
    force: bool, currentHour: int, startOfDay: int) returns (resp: JobResponse)
    ensures !serviceKey ==> resp == Simulated(|MOCK_SHOPS|)
    ensures serviceKey && shopRows.None? ==> resp == DatabaseError
    ensures serviceKey && shopRows.Some? ==>
      (resp == NoEligibleShops <==> |DailySummary.EligibleShops(shopRows.value)| == 0)
    ensures serviceKey && shopRows.Some? && |DailySummary.EligibleShops(shopRows.value)| > 0 ==> resp.Completed?
    ensures resp.Completed? ==>
      var chosen := DailySummary.Selected(DailySummary.EligibleShops(shopRows.value), force, currentHour);
      && resp.processed == |resp.details| == |chosen|
      && resp.details == DailySummary.Summaries(chosen, store, startOfDay)
  {
    if !serviceKey {
      return Simulated(|MOCK_SHOPS|);
    }
    if shopRows.None? {
      return DatabaseError;
    }
    var eligible := DailySummary.EligibleShops(shopRows.value);
    if |eligible| == 0 {
      return NoEligibleShops;
    }
    var details := SummarizeShops(eligible, store, force, currentHour, startOfDay);
    resp := Completed(|details|, details);
  }

  /** The loop over the eligible shops: skip the shops whose hour is not now,
      summarize the others. */
  method SummarizeShops(eligible: seq<Shop>, store: seq<Bill>, force: bool, currentHour: int, startOfDay: int)
    returns (details: seq<DailySummary.Summary>)
    ensures details == DailySummary.Summaries(DailySummary.Selected(eligible, force, currentHour), store, startOfDay)
  {
    details := [];
    var i := 0;
    while i < |eligible|
      invariant 0 <= i <= |eligible|
      invariant details == DailySummary.Summaries(DailySummary.Selected(eligible[..i], force, currentHour), store, startOfDay)
    {
      var shop := eligible[i];
      DailySummary.LoopStep(eligible, i, force, currentHour, store, startOfDay);
      var added := Visit(shop, DailySummary.RunsNow(shop, force, currentHour), store, startOfDay);
      details := details + added;
      i := i + 1;
    }
    assert eligible[..i] == eligible;
  }

  /** The loop body for one shop: its summary when it is due, nothing otherwise. */
  method Visit(shop: Shop, due: bool, store: seq<Bill>, startOfDay: int) returns (added: seq<DailySummary.Summary>)
    ensures added == if due then [DailySummary.SummaryOf(shop, store, startOfDay)] else []
  {
    added := [];
    if due {
      var summary := SummarizeShop(shop, store, startOfDay);
      added := [summary];
    }
  }

  /** One shop's summary: today's bills through `Aggregate`, and the credit bills of all time. */
  method SummarizeShop(shop: Shop, store: seq<Bill>, startOfDay: int) returns (summary: DailySummary.Summary)
    ensures summary == DailySummary.SummaryOf(shop, store, startOfDay)
  {
    var mine := Ledger.OfShop(store, shop.id);
    var sales := DailySummary.Aggregate(Ledger.Since(mine, startOfDay));
    var pending := Ledger.Total(Ledger.CreditOnly(mine));
    summary := DailySummary.Summary(shop.name, shop.ownerId, sales, pending);
  }
}

=== FILE: text.dfy ===
/** String helpers the pages rely on: ASCII case mapping (`toUpperCase`,
    `toLowerCase`), substring search (`includes`), the part of a string before
    a separator (`split(':')[0]`) and the leading-integer parse of `parseInt`. */
module Text {

  import opened Optional

  predicate IsAsciiLower(c: char) { 'a' <= c <= 'z' }

  predicate IsAsciiUpper(c: char) { 'A' <= c <= 'Z' }

  predicate IsDigit(c: char) { '0' <= c <= '9' }

  function UpperChar(c: char): (u: char)
    ensures IsAsciiLower(c) ==> IsAsciiUpper(u) && u as int == c as int - 32
    ensures !IsAsciiLower(c) ==> u == c
    ensures !IsAsciiLower(u)
  {
    if IsAsciiLower(c) then (c as int - 32) as char else c
  }

  function LowerChar(c: char): (l: char)
    ensures IsAsciiUpper(c) ==> IsAsciiLower(l) && l as int == c as int + 32
    ensures !IsAsciiUpper(c) ==> l == c
    ensures !IsAsciiUpper(l)
  {
    if IsAsciiUpper(c) then (c as int + 32) as char else c
  }

  /** `s.toUpperCase()`, restricted to the ASCII letters. */
  function ToUpper(s: string): (r: string)
    ensures |r| == |s|
    ensures forall i :: 0 <= i < |s| ==> r[i] == UpperChar(s[i])
  {
    seq(|s|, i requires 0 <= i < |s| => UpperChar(s[i]))
  }

  /** `s.toLowerCase()`, restricted to the ASCII letters. */
  function ToLower(s: string): (r: string)
    ensures |r| == |s|
    ensures forall i :: 0 <= i < |s| ==> r[i] == LowerChar(s[i])
  {
    seq(|s|, i requires 0 <= i < |s| => LowerChar(s[i]))
  }

  /** Upper-casing twice is upper-casing once. */
  lemma ToUpperIdempotent(s: string)
    ensures ToUpper(ToUpper(s)) == ToUpper(s)
  {
  }

  /** Upper-casing forgets whether a letter was written in lower case. */
  lemma ToUpperOfToLower(s: string)
    ensures ToUpper(ToLower(s)) == ToUpper(s)
  {
  }

  /** `needle` occurs in `hay` starting at index `i`. */
  predicate OccursAt(hay: string, needle: string, i: int)
  {
    0 <= i && i + |needle| <= |hay| && hay[i..i + |needle|] == needle
  }

  lemma OccursAtShift(hay: string, needle: string)
    requires |hay| > 0
    ensures forall i :: 0 <= i ==> (OccursAt(hay[1..], needle, i) <==> OccursAt(hay, needle, i + 1))
  {
    forall i | 0 <= i
      ensures OccursAt(hay[1..], needle, i) <==> OccursAt(hay, needle, i + 1)
    {
      if 0 <= i && i + |needle| <= |hay[1..]| {
        assert hay[1..][i..i + |needle|] == hay[i + 1..i + 1 + |needle|];
      }
    }
  }

  /** `hay.includes(needle)`: some window of `hay` equals `needle`. */
  function Contains(hay: string, needle: string): (b: bool)
    ensures b <==> exists i :: OccursAt(hay, needle, i)
    decreases |hay|
  {
    if |needle| > |hay| then
      false
    else if hay[..|needle|] == needle then
      assert OccursAt(hay, needle, 0);
      true
    else
      var rest := Contains(hay[1..], needle);
      OccursAtShift(hay, needle);
      assert forall i :: OccursAt(hay, needle, i) ==> i == 0 || OccursAt(hay[1..], needle, i - 1);
      rest
  }

  /** The empty string occurs in every string. */
  lemma ContainsEmpty(hay: string)
    ensures Contains(hay, "")
  {
    assert OccursAt(hay, "", 0);
  }

  /** `s.split(sep)[0]`: the part of `s` before the first `sep`, or all of `s`. */
  function Before(s: string, sep: char): (r: string)
    ensures |r| <= |s| && r == s[..|r|]
    ensures sep !in r
    ensures |r| < |s| ==> s[|r|] == sep
  {
    if |s| == 0 || s[0] == sep then "" else [s[0]] + Before(s[1..], sep)
  }

  /** The length of the run of ASCII digits at the start of `s`. */
  function DigitRun(s: string): (n: nat)
    ensures n <= |s|
    ensures forall i :: 0 <= i < n ==> IsDigit(s[i])
    ensures n < |s| ==> !IsDigit(s[n])
  {
    if |s| == 0 || !IsDigit(s[0]) then 0 else 1 + DigitRun(s[1..])
  }

  predicate AllDigits(s: string)
  {
    forall i :: 0 <= i < |s| ==> IsDigit(s[i])
  }

  /** The decimal value of a string of digits, leading zeros allowed. */
  function DigitsValue(d: string): nat
    requires AllDigits(d)
  {
    if |d| == 0 then 0
    else 10 * DigitsValue(d[..|d| - 1]) + (d[|d| - 1] as int - '0' as int)
  }

  /** `parseInt(s)` in base 10: an optional sign followed by the longest run of
      digits; `None` stands for NaN, when no digit follows the sign. */
  function ParseInt(s: string): (r: Option<int>)
  {
    var signed := |s| > 0 && (s[0] == '-' || s[0] == '+');
    var body := if signed then s[1..] else s;
    var n := DigitRun(body);
    if n == 0 then None
    else
      var v: int := DigitsValue(body[..n]);
      if signed && s[0] == '-' then Some(-v) else Some(v)
  }

  /** A run of digits followed by anything that is not a digit parses to the
      value of the run: "21:00" and "21" both read as 21. */
  lemma {:induction false} ParseIntOfDigits(d: string, rest: string)
    requires |d| > 0 && AllDigits(d)
    requires |rest| == 0 || !IsDigit(rest[0])
    ensures ParseInt(d + rest) == Some(DigitsValue(d))
  {
    var s := d + rest;
    assert s[0] == d[0];
    DigitRunOfDigits(d, rest);
    assert s[..|d|] == d;
  }

  lemma {:induction false} DigitRunOfDigits(d: string, rest: string)
    requires AllDigits(d)
    requires |rest| == 0 || !IsDigit(rest[0])
    ensures DigitRun(d + rest) == |d|
    decreases |d|
  {
    if |d| == 0 {
      assert d + rest == rest;
    } else {
      assert (d + rest)[1..] == d[1..] + rest;
      DigitRunOfDigits(d[1..], rest);
    }
  }

  /** A sign before a digit run: '-' negates the run's value, '+' keeps it. */
  lemma {:induction false} ParseIntSigned(sign: char, d: string, rest: string)
    requires sign == '-' || sign == '+'
    requires |d| > 0 && AllDigits(d)
    requires |rest| == 0 || !IsDigit(rest[0])
    ensures sign == '-' ==> ParseInt([sign] + d + rest) == Some(-(DigitsValue(d) as int))
    ensures sign == '+' ==> ParseInt([sign] + d + rest) == Some(DigitsValue(d))
  {
    var s := [sign] + d + rest;
    assert s[1..] == d + rest;
    DigitRunOfDigits(d, rest);
    assert (d + rest)[..|d|] == d;
  }

  /** A sign followed by nothing, or by anything but a digit, is NaN. */
  lemma {:induction false} ParseIntSignAlone(sign: char, rest: string)
    requires sign == '-' || sign == '+'
    requires |rest| == 0 || !IsDigit(rest[0])
    ensures ParseInt([sign] + rest) == None
  {
    assert ([sign] + rest)[1..] == rest;
  }

  /** A string that starts with neither a digit nor a sign is NaN. */
  lemma ParseIntNoDigits(s: string)
    requires |s| == 0 || (!IsDigit(s[0]) && s[0] != '-' && s[0] != '+')
    ensures ParseInt(s) == None
  {
  }
}
